=== FILE: README.md ===
# Maximum clique programs, modelled in Dafny

The repository holds a family of C++ programs that search an undirected graph
for a maximum clique. The graph is given as an adjacency matrix read from an
edge list. This project models the pure part of each program:

- the root-restricted recursive kernel `encontrarCliqueMaximaRec` and the root
  loop `encontrarCliqueMaxima` of the reference program;
- the same kernel and loop written with index loops (simulacoes-cluster);
- the memoized kernel with its string key and a table shared by all roots;
- the distributed program, modelled as pure values:
  - the row-major flatten and rebuild of the matrix;
  - the per-rank range split;
  - the local range search;
  - the gather on rank 0 that keeps a strictly longer answer;
- two greedy heuristics:
  - the adjacency-ranked one;
  - the pop-last one;
- the exhaustive include/exclude search of the demo, which serves as the
  reference maximum;
- the edge-list to matrix construction `lerGrafo`.

One graph type serves all programs: `Graph.Matrix`, a `seq<seq<int>>`.
`Graph.WellFormed` says the matrix is square, 0/1, symmetric and has a zero
diagonal, which is what `lerGrafo` builds from an edge list without
self-loops (`Reader.ReadGraph`). Vertex ids are unbounded `nat`s.

Modules follow the programs:

| module | what it models |
|---|---|
| `Graph` | the matrix, cliques as lists and as sets, the candidate filter |
| `Kernel` | `encontrarCliqueMaximaRec` as mutually recursive functions `Expand`/`Best` |
| `Reduce` | the strict-greater left fold used by every root loop and by the gather |
| `RootScan` | `encontrarCliqueMaxima` over all roots or over a range of roots |
| `Checks` | the adjacency checks with early `break` and the index filter loop |
| `Indexed` | the index-loop program, proved equal to `Kernel`/`RootScan` |
| `Memo` | the memoized program, proved equal to `Kernel`/`RootScan` |
| `Distributed` | flatten/rebuild, rank ranges, local searches and the gather |
| `Heuristic` | `encontraCandidatoSegundoHeuristica` and the greedy loop |
| `PopLast` | the pop-last greedy of forca-bruta.cpp |
| `Reader` | `lerGrafo` on an in-memory edge list |
| `Exhaustive` | `formaClique` and the include/exclude subset search |

The kernel terminates because each recursive call works on fewer
neighbours: no vertex is its own neighbour when the diagonal is zero. The
central results are listed below.

- `Kernel.ExpandIsMaximal`: the kernel returns a largest clique that contains
  its root and otherwise draws on its candidates.
- `RootScan.FindMaxCliqueIsMaximum`: the root loop returns a maximum clique.
- `Exhaustive.KernelMatchesOracle`: the kernel program and the exhaustive
  search agree on the maximum size.
- `Memo.FindMaxCliqueMemo` and `Indexed.FindMaxCliqueIndexed`: the memoized
  and the index-loop programs compute exactly the reference answer.

Three behaviours of the code deserve a note:

- **Memo key.** The key is the ordered string the code builds: `to_string(v)`
  followed by `"_" + to_string(c)` for each candidate, in list order.
  `Memo.KeyInjective` shows that distinct search states get distinct keys.
- **Failed re-check.** A child whose re-check `podeAdicionar` fails is
  skipped, and `Kernel.Extend` does the same. `Kernel.ChildJoinsRoot` proves
  that this never happens.
- **Remainder roots.** The distributed split leaves the last n % size roots
  uncovered. This is modelled as written and logged under Findings, together
  with a corrected split.

## Model

| member | source | states |
|---|---|---|
| Graph.Filter | forca-bruta-recursivo.cpp:37-54 | the filtered list holds only candidates from C joined to every member of K, and every candidate of C joined to all of K is kept |
| Graph.FilterSingle | forca-bruta-recursivo.cpp:41-54 | a one-element list is kept exactly when its element is joined to the whole clique |
| Graph.FilterAppend | forca-bruta-recursivo.cpp:41-54 | filtering distributes over concatenation, so `novosCandidatos` keeps the candidates in list order, each as often as listed |
| Graph.FilterDropsSelf | forca-bruta-recursivo.cpp:56-58 | filtering a list against one of its own members gives a strictly shorter list (zero diagonal): the recursion measure |
| Graph.CliqueIsDistinct | forca-bruta-recursivo.cpp:71-75 | in a graph without self-loops a clique lists no vertex twice |
| Graph.CliqueAsSet | forca-bruta-recursivo.cpp:71-75 | an ordered clique read as a set is a clique of the same size |
| Graph.AppendKeepsClique | src/heuristica-adjacencia.cpp:76 | appending a vertex joined to every member keeps the list a clique |
| Kernel.Expand | forca-bruta-recursivo.cpp:30-79 | the kernel's clique ends with the root, is pairwise joined and duplicate-free, and its other members come from the candidates and are joined to the root |
| Kernel.Best | forca-bruta-recursivo.cpp:56-76 | the loop over the neighbours keeps a clique of that shape and never shrinks it; which clique it ends on is stated by Kernel.BestFold |
| Kernel.Extend | forca-bruta-recursivo.cpp:60-75 | one iteration keeps the old clique or takes child followed by root, never shrinks, takes a passing child followed by root when it is longer, and keeps the old clique on a tie |
| Kernel.NeighboursOfRoot | forca-bruta-recursivo.cpp:37-54 | `novosCandidatos` holds exactly the candidates joined to the root (both directions) |
| Kernel.ChildJoinsRoot | forca-bruta-recursivo.cpp:60-69 | the re-check `podeAdicionar` passes for every child clique |
| Kernel.BestFold | forca-bruta-recursivo.cpp:56-76 | the loop from position i, seeded with the strict-greater fold of the first i child candidates (child clique followed by root), ends on the fold of all of them |
| Kernel.ExpandIsFold | forca-bruta-recursivo.cpp:30-79 | the kernel's answer is the strict-greater fold, seeded with `[v]`, of the child candidates in `novosCandidatos` order |
| Kernel.ExpandPicksFirstLongest | forca-bruta-recursivo.cpp:30-79 | the kernel's answer is `[v]` when there is no neighbour, and otherwise the first longest child candidate: on a tie the earlier neighbour wins |
| Kernel.BestAtLeast | forca-bruta-recursivo.cpp:56-76 | the loop's answer is at least one longer than every later child's clique |
| Kernel.RestInNeighbours | forca-bruta-recursivo.cpp:37-54 | every other member of a clique through the root that draws on the candidates survives into `novosCandidatos` |
| Kernel.ExpandAboveChild | forca-bruta-recursivo.cpp:56-79 | the kernel's answer for a root is at least one longer than the answer for any of its neighbours |
| Kernel.ExpandIsMaximal | forca-bruta-recursivo.cpp:30-79 | no clique containing the root and otherwise drawn from the candidates is larger than the kernel's answer |
| Reduce.Fold | forca-bruta-recursivo.cpp:92-97 | the fold's answer is the seed or one of the values, at least as long as the seed and as every value |
| Reduce.FoldPicksFirstLongest | forca-bruta-recursivo.cpp:92-97 | with replacement only on strictly greater size, the answer is the seed when nothing is longer, and otherwise the first of the longest values |
| RootScan.Kernels | forca-bruta-recursivo.cpp:92-93 | entry i is the kernel's answer for root i with all vertices as candidates |
| RootScan.Scan | forca-bruta-recursivo.cpp:82-100 | the root loop gives the empty list when there are no roots, and otherwise the kernel answer of the first root whose answer is longest; it is a duplicate-free clique |
| RootScan.FindMaxClique | forca-bruta-recursivo.cpp:82-100 | the sequential answer is a duplicate-free clique, empty for n = 0, otherwise the first longest kernel answer; `RootScan.FindMaxCliqueIsMaximum` proves it maximum |
| RootScan.ScanRange | src/forca-bruta-recursivo-distribuido.cpp:91-119 | the range search is a duplicate-free clique, empty on an empty range, otherwise the first longest kernel answer of the range; `RootScan.ScanRangeCovers` bounds every clique through a root of the range |
| RootScan.ScanCoversRoots | forca-bruta-recursivo.cpp:92-97 | no clique containing one of the roots is larger than the root loop's answer |
| RootScan.FindMaxCliqueIsMaximum | forca-bruta-recursivo.cpp:82-100 | the sequential answer is a maximum clique of the graph, and it is empty exactly when n = 0 |
| RootScan.ScanRangeCovers | src/forca-bruta-recursivo-distribuido.cpp:91-119 | the range search is at least as large as every clique containing a root of [iStart, iEnd) |
| RootScan.OneVertexAnswer | forca-bruta-recursivo.cpp:82-100 | on any graph with a single vertex the sequential program prints that vertex |
| Checks.CheckAdjacentToAll | forca-bruta-recursivo.cpp:41-49 | the loop with early `break` answers true exactly when u is joined to every member |
| Checks.CheckAllAdjacentTo | forca-bruta-recursivo.cpp:60-69 | the loop with early `break` answers true exactly when every member is joined to v |
| Checks.FilterLoop | simulacoes-cluster/forca-bruta-recursivo-paralelisado.cpp:42-57 | after the index loop the list is the ordered filter of the candidates (invariant over the prefix scanned so far) |
| Indexed.ExpandIndexed | simulacoes-cluster/forca-bruta-recursivo-paralelisado.cpp:31-85 | the index-loop kernel returns exactly the functional kernel's clique |
| Indexed.ExtendIndexed | simulacoes-cluster/forca-bruta-recursivo-paralelisado.cpp:60-82 | one pass (recursive call, shadowing re-check loop, update): the re-check always passes, the pass takes child followed by root exactly when the child is strictly longer and otherwise keeps the best clique (`Kernel.Extend`), keeps a rooted clique, and leaves the rest of the loop's answer unchanged |
| Indexed.FindMaxCliqueIndexed | simulacoes-cluster/forca-bruta-recursivo-paralelisado.cpp:88-109 | read sequentially, the index-loop root loop returns the reference answer, a maximum clique, empty exactly when n = 0 |
| Memo.Decimal | forca-bruta-recursivo-memoizado-paralelisado.cpp:36 | `to_string` of an id is a non-empty run of decimal digits |
| Memo.DecimalRoundTrip | forca-bruta-recursivo-memoizado-paralelisado.cpp:36 | reading the digits back gives the id |
| Memo.CandidateSuffix | forca-bruta-recursivo-memoizado-paralelisado.cpp:37-39 | the candidate part of the key is empty exactly for no candidates, and otherwise starts with the separator |
| Memo.Key | forca-bruta-recursivo-memoizado-paralelisado.cpp:36-39 | the root is read back from the key's leading digits and the rest of the key is the candidate part; `Memo.KeyInjective` proves distinct states get distinct keys |
| Memo.KeyInjective | forca-bruta-recursivo-memoizado-paralelisado.cpp:36-39 | distinct (root, candidate list) states with non-negative ids have distinct keys |
| Memo.StoreKeepsSound | forca-bruta-recursivo-memoizado-paralelisado.cpp:103-107 | storing the kernel's answer under its key keeps every entry equal to the plain kernel's answer for its state |
| Memo.ExpandMemo | forca-bruta-recursivo-memoizado-paralelisado.cpp:31-111 | the memoized kernel returns the plain kernel's clique; on a hit the table is unchanged; afterwards the key maps to the answer, old entries keep their values, and every entry is still the plain kernel's answer |
| Memo.BestMemo | forca-bruta-recursivo-memoizado-paralelisado.cpp:77-101 | the loop over the neighbours with the table threaded through returns the plain loop's answer and keeps the table sound and growing |
| Memo.ScanMemo | forca-bruta-recursivo-memoizado-paralelisado.cpp:128-138 | the root loop sharing one table returns the plain root loop's answer |
| Memo.FindMaxCliqueMemo | forca-bruta-recursivo-memoizado-paralelisado.cpp:114-141 | starting from an empty table, the memoized program returns exactly the plain program's answer |
| Distributed.Flatten | src/forca-bruta-recursivo-distribuido.cpp:150-154 | the rows appended in order (empty for no rows); `Distributed.FlattenLayout` and `Distributed.FlattenRowMajor` place every cell |
| Distributed.Rebuild | src/forca-bruta-recursivo-distribuido.cpp:160-165 | cutting an array of count*w cells gives count rows of width w |
| Distributed.OffsetIsProduct | src/forca-bruta-recursivo-distribuido.cpp:163 | the row offset built by repeated addition is `i * numVertices` |
| Distributed.FlattenCell | src/forca-bruta-recursivo-distribuido.cpp:150-154 | after appending the rows in order, cell (i, j) of the matrix sits at offset(i) + j of the buffer |
| Distributed.FlattenLayout | src/forca-bruta-recursivo-distribuido.cpp:150-154 | the flattened buffer has one cell per matrix cell and cell i*n+j (offset(i) + j) holds `grafo[i][j]` |
| Distributed.FlattenRowMajor | src/forca-bruta-recursivo-distribuido.cpp:150-154 | for an n×n matrix the buffer has n*n cells and cell i*n + j holds `grafo[i][j]` |
| Distributed.RebuildRows | src/forca-bruta-recursivo-distribuido.cpp:160-165 | for a buffer of n*n cells, entry j of rebuilt row i is cell i*n+j (offset(i) + j) of the buffer |
| Distributed.RebuildFlatten | src/forca-bruta-recursivo-distribuido.cpp:150-165 | rebuilding the flattened matrix gives the matrix back |
| Distributed.FlattenRebuild | forca-bruta-recursivo-distribuido.cpp:129-144 | flattening the rebuilt rows gives the buffer back |
| Distributed.RankGraph | src/forca-bruta-recursivo-distribuido.cpp:135-165 | every rank searches the same matrix rank 0 read |
| Distributed.WrittenRange | src/forca-bruta-recursivo-distribuido.cpp:171-173 | a rank's range has n/size roots and lies inside [0, size*(n/size)), so inside [0, n) |
| Distributed.WrittenContiguous | src/forca-bruta-recursivo-distribuido.cpp:171-173 | each rank's range ends where the next rank's begins |
| Distributed.WrittenDisjoint | src/forca-bruta-recursivo-distribuido.cpp:171-173 | ranges of different ranks do not overlap |
| Distributed.WrittenCovers | src/forca-bruta-recursivo-distribuido.cpp:171-173 | every root below size*(n/size) lies in some rank's range |
| Distributed.WrittenMisses | forca-bruta-recursivo-distribuido.cpp:148-150 | no root in [size*(n/size), n) lies in any rank's range |
| Distributed.TooManyRanks | src/forca-bruta-recursivo-distribuido.cpp:171-176 | with more ranks than vertices every range and every local answer is empty, and so is the gathered answer |
| Distributed.LocalResults | src/forca-bruta-recursivo-distribuido.cpp:171-176 | one answer per rank, each a duplicate-free clique, and rank r's answer is the range search over rank r's own roots |
| Distributed.Gather | src/forca-bruta-recursivo-distribuido.cpp:178-191 | rank 0 ends with the answer of the lowest rank among those with the longest answer |
| Distributed.GatherPicksFirstLongest | forca-bruta-recursivo-distribuido.cpp:154-171 | the strict-greater receive loop started from rank 0's own answer picks the first longest answer |
| Distributed.DistributedClique | src/forca-bruta-recursivo-distribuido.cpp:170-191 | the printed answer is a duplicate-free clique |
| Distributed.GatherCovers | src/forca-bruta-recursivo-distribuido.cpp:171-191 | a clique with a member in some rank's range of roots is no larger than the gathered answer |
| Distributed.WrittenExactWhenDivisible | src/forca-bruta-recursivo-distribuido.cpp:171-191 | when size divides n the gathered answer is a maximum clique, so it has the single-process size |
| Distributed.WrittenSizeWhenDivisible | src/forca-bruta-recursivo-distribuido.cpp:171-191 | when size divides n the distributed program prints a clique of the same size as the single-process program |
| Distributed.WrittenDropsRemainder | src/forca-bruta-recursivo-distribuido.cpp:171-173 | with one vertex and two ranks the printed clique is empty while the single-process answer is that vertex |
| Distributed.FixedRange | src/forca-bruta-recursivo-distribuido.cpp:171-173 | the corrected split gives n/size roots plus one for the first n % size ranks, inside [0, n) |
| Distributed.FixedCovers | src/forca-bruta-recursivo-distribuido.cpp:171-173 | under the corrected split every root in [0, n) lies in some rank's range |
| Distributed.FixedCoversAnswer | src/forca-bruta-recursivo-distribuido.cpp:171-191 | with the corrected split the gathered answer is at least as long as the sequential answer |
| Distributed.RangesAgree | src/forca-bruta-recursivo-distribuido.cpp:171-173 | when size divides n the corrected split is the written one |
| Distributed.FixedIsMaximum | src/forca-bruta-recursivo-distribuido.cpp:171-191 | with the corrected split the gathered answer is always a maximum clique |
| Heuristic.CountAdjacency | src/heuristica-adjacencia.cpp:40-46 | the inner loop counts exactly the candidates u is joined to |
| Heuristic.PickCandidate | src/heuristica-adjacencia.cpp:30-57 | -1 exactly for an empty list; otherwise the index of the candidate with the most adjacencies, the lowest such index on ties |
| Heuristic.Erase | src/heuristica-adjacencia.cpp:73 | erasing one position leaves one entry fewer, keeps every other entry and adds nothing; putting the erased entry back at position k restores the list, so order is kept and exactly that entry is removed |
| Heuristic.GreedyKeeps | src/heuristica-adjacencia.cpp:73-96 | one greedy step loses no candidate that could still extend the grown clique, and the new list draws on the original candidates |
| Heuristic.GreedyClique | src/heuristica-adjacencia.cpp:60-101 | the greedy pass returns a duplicate-free clique drawn from the candidates, non-empty for a non-empty list, to which no other candidate is joined entirely |
| Heuristic.HeuristicClique | src/heuristica-adjacencia.cpp:104-119 | on all vertices: a clique, empty exactly when n = 0, that no vertex extends, never larger than a maximum clique |
| PopLast.FilterIncreasing | forca-bruta.cpp:53-71 | filtering an increasing candidate list keeps it increasing |
| PopLast.PopOrder | forca-bruta.cpp:37-72 | after a pass the clique still decreases and every remaining candidate lies below all of its members |
| PopLast.PopCovers | forca-bruta.cpp:53-71 | after a pass a vertex neither in the clique nor kept as a candidate cannot extend the clique |
| PopLast.PopKeeps | forca-bruta.cpp:37-72 | adding the last candidate and filtering the rest keeps the loop invariant |
| PopLast.PopStep | forca-bruta.cpp:37-72 | one pass always adds the popped vertex (the check passes) and keeps the loop invariant, with a strictly shorter list |
| PopLast.PopLastGreedy | forca-bruta.cpp:27-76 | a clique, empty exactly when n = 0, starting with n-1, in strictly decreasing order, that no vertex extends, never larger than a maximum clique |
| Reader.ReadGraph | forca-bruta.cpp:7-24 | the matrix is n×n, 0/1 and symmetric, a cell is 1 exactly when some edge joins its two ids, and without self-loop edges it is a graph the searches accept |
| Exhaustive.FormsClique | demos/forca-bruta-recursivo-sem-candidatos.cpp:32-42 | the nested loop answers true exactly when every earlier member is joined to every later one |
| Exhaustive.Search | demos/forca-bruta-recursivo-sem-candidatos.cpp:45-63 | the recursion returns the incoming best or a strictly longer clique, increasing when the current list is |
| Exhaustive.SearchRec | demos/forca-bruta-recursivo-sem-candidatos.cpp:45-63 | the recursion as written, `formaClique` evaluated only on longer lists, computes the same list |
| Exhaustive.SearchFindsEvery | demos/forca-bruta-recursivo-sem-candidatos.cpp:56-62 | every increasing choice of later vertices that forms a clique with the current list is matched in size by the answer |
| Exhaustive.Oracle | demos/forca-bruta-recursivo-sem-candidatos.cpp:66-73 | the demo's answer is a clique in increasing id order |
| Exhaustive.OracleIsMaximum | demos/forca-bruta-recursivo-sem-candidatos.cpp:66-73 | the demo's answer is a maximum clique, empty exactly when n = 0 |
| Exhaustive.KernelMatchesOracle | forca-bruta-recursivo.cpp:82-100 | the kernel program's answer has the size of the exhaustive search's answer |

The root-level forca-bruta-recursivo-distribuido.cpp is the same program as
src/forca-bruta-recursivo-distribuido.cpp, differing only in comments. Its
kernel (lines 32-81), root loop (84-105), flatten and rebuild (129-144),
split (148-150) and gather (154-171) are modelled by the same members.
The kernels of the other programs are likewise `Kernel.Expand`.

## Left out

- File reading in `lerGrafo`, the hard-coded file names, the `chrono` timing and all output. The printed ids are shifted by one (`vertice + 1`). This is I/O. `Reader.ReadGraph` takes the vertex count and the edge list as values.
- Reader.ReadGraph: requires every edge id to lie in [1, n]. The source's `lerGrafo` does no validation: an id outside that range indexes out of bounds, and an edge list shorter than declared reads past the input, so its behaviour on such input is undefined.
- Self-loop edges: the kernel requires a zero diagonal. With a self-loop the source's recursion does not terminate.
- OpenMP `parallel for` and `critical`. The root loops read and write the shared `cliqueAtual`/`melhorClique` without synchronisation. The memo lookup sits outside the critical section. Every loop is modelled by its sequential reading.
- MPI transport (`MPI_Init`, `MPI_Bcast`, `MPI_Send`, `MPI_Recv`, `MPI_Finalize`): messages are handed over as values. The broadcast of `numVertices` and the `resize` on other ranks are represented by passing the matrix size.
- `unordered_map` hashing: the memo is a Dafny `map<string, seq<nat>>`.
- Fixed-width `int` arithmetic (for example `numVertices * numVertices`): ids and sizes are unbounded, and no overflow is modelled.
- The `%%writefile` notebook line at the top of the demo file: not code.
- Exhaustive.Search: `cliqueAtual` is passed by value. The push at line 57 undone by the pop at line 59 is therefore the identity by construction, not a proved property of a mutable vector.
- Heuristic.GreedyClique: states the clique, origin and inclusion-maximality properties of the result, not which clique the ranking selects. The choice made at each step is stated by `Heuristic.PickCandidate`.
- Exhaustive.Search: states that the answer is the incoming best or a strictly longer clique, not that it is the first such list in enumeration order. Its maximality is stated separately by `Exhaustive.SearchFindsEvery`.
- The loops that fill `candidatos` with 0..n-1 are `Graph.Range`.

## Findings

| source | as written | input that shows it | evidently intended | confidence | as-written member | corrected member |
|---|---|---|---|---|---|---|
| src/forca-bruta-recursivo-distribuido.cpp:171-173 | every rank scans n / size roots from rank * (n / size), so the last n % size roots are scanned by no rank | one vertex (matrix `[[0]]`) and two ranks: both ranges are empty and the printed clique is empty, while the vertex alone is a clique of size 1 | every root is scanned, for example by giving one extra root to each of the first n % size ranks | not executed; high (proved for the model) | Distributed.WrittenDropsRemainder | Distributed.FixedIsMaximum |

=== FILE: checks.dfy ===
/** The small loops every program repeats: the adjacency test with an early
    `break`, and the loop that rebuilds a candidate list from the members
    that pass that test. */
module Checks {
  import opened Graph

  /** `adjacenteATodos`: scans K and stops at the first member u is not joined to. */
  method CheckAdjacentToAll(g: Matrix, u: nat, K: seq<nat>) returns (ok: bool)
    requires Square(g) && u < |g| && Vertices(g, K)
    ensures ok <==> AdjacentToAll(g, u, K)
  {
    ok := true;
    var j := 0;
    while j < |K|
      invariant 0 <= j <= |K|
      invariant ok <==> forall k :: 0 <= k < j ==> g[u][K[k]] != 0
      invariant !ok ==> !AdjacentToAll(g, u, K)
    {
      if g[u][K[j]] == 0 {
        ok := false;
        break;
      }
      j := j + 1;
    }
  }

  /** `podeAdicionar`: scans K and stops at the first member not joined to v. */
  method CheckAllAdjacentTo(g: Matrix, K: seq<nat>, v: nat) returns (ok: bool)
    requires Square(g) && v < |g| && Vertices(g, K)
    ensures ok <==> AllAdjacentTo(g, K, v)
  {
    ok := true;
    var j := 0;
    while j < |K|
      invariant 0 <= j <= |K|
      invariant ok <==> forall k :: 0 <= k < j ==> g[K[k]][v] != 0
      invariant !ok ==> !AllAdjacentTo(g, K, v)
    {
      if g[K[j]][v] == 0 {
        ok := false;
        break;
      }
      j := j + 1;
    }
  }

  /** The index loop that pushes every candidate joined to all of K, keeping
      the order of C: after it, the list is exactly Filter(g, K, C). */
  method FilterLoop(g: Matrix, K: seq<nat>, C: seq<nat>) returns (r: seq<nat>)
    requires Square(g) && Vertices(g, K) && Vertices(g, C)
    ensures r == Filter(g, K, C)
  {
    r := [];
    var i := 0;
    while i < |C|
      invariant 0 <= i <= |C|
      invariant r == Filter(g, K, C[..i])
    {
      var ok := CheckAdjacentToAll(g, C[i], K);
      if ok {
        r := r + [C[i]];
      }
      assert C[..i + 1][..i] == C[..i];
      i := i + 1;
    }
    assert C[..|C|] == C;
  }
}

=== FILE: distributed.dfy ===
/** The distributed program: rank 0 reads the graph, broadcasts it as one
    flat row-major array that every other rank cuts back into rows, each rank
    runs the root loop over its own contiguous range of roots, and rank 0
    gathers the ranks' answers in rank order, keeping a strictly longer one.
    The transport itself (MPI_Bcast, MPI_Send, MPI_Recv) is a plain value
    hand-over here. */
module Distributed {
  import opened Graph
  import opened Kernel
  import opened Reduce
  import opened RootScan

  /** Every row has width w. */
  predicate Uniform(rows: seq<seq<int>>, w: nat) {
    forall i :: 0 <= i < |rows| ==> |rows[i]| == w
  }

  /** Rows appended one after the other, as the broadcast buffer is filled.
      Where each cell lands is stated by FlattenLayout and FlattenRowMajor,
      and RebuildFlatten shows that nothing is lost. */
  function Flatten(rows: seq<seq<int>>): (flat: seq<int>)
    ensures rows == [] ==> flat == []
  {
    if rows == [] then [] else Flatten(rows[..|rows| - 1]) + rows[|rows| - 1]
  }

  /** The offset of row i in a row-major buffer of rows of width w: i*w,
      written as i additions of w so that the layout proofs stay linear. */
  function Offset(i: nat, w: nat): nat {
    if i == 0 then 0 else Offset(i - 1, w) + w
  }

  lemma {:induction false} OffsetIsProduct(i: nat, w: nat)
    ensures Offset(i, w) == i * w
  {
    if i > 0 {
      OffsetIsProduct(i - 1, w);
      assert i * w == (i - 1) * w + w;
    }
  }

  /** The receiving side: `count` consecutive slices of width w, the i-th one
      being the cells Offset(i, w) up to Offset(i + 1, w). */
  function Rebuild(flat: seq<int>, w: nat, count: nat): (rows: seq<seq<int>>)
    requires |flat| == Offset(count, w)
    ensures |rows| == count && Uniform(rows, w)
    decreases count
  {
    if count == 0 then []
    else Rebuild(flat[..|flat| - w], w, count - 1) + [flat[|flat| - w..]]
  }

  lemma MulMono(a: nat, b: nat, c: nat)
    requires a <= b
    ensures a * c <= b * c
  {
  }

  lemma {:induction false} FlattenLength(rows: seq<seq<int>>, w: nat)
    requires Uniform(rows, w)
    ensures |Flatten(rows)| == Offset(|rows|, w)
  {
    if rows != [] {
      FlattenLength(rows[..|rows| - 1], w);
    }
  }

  /** Cell (i, j) of rows of width w sits at Offset(i, w) + j of flat. */
  predicate CellAt(flat: seq<int>, rows: seq<seq<int>>, w: nat, i: nat, j: nat)
    requires Uniform(rows, w) && i < |rows| && j < w
  {
    Offset(i, w) + j < |flat| && flat[Offset(i, w) + j] == rows[i][j]
  }

  lemma {:induction false} FlattenCell(rows: seq<seq<int>>, w: nat, i: nat, j: nat)
    requires Uniform(rows, w) && i < |rows| && j < w
    ensures CellAt(Flatten(rows), rows, w, i, j)
  {
    var front := rows[..|rows| - 1];
    FlattenLength(front, w);
    assert Flatten(rows) == Flatten(front) + rows[|rows| - 1];
    if i < |front| {
      FlattenCell(front, w, i, j);
    } else {
      assert rows[i] == rows[|rows| - 1];
    }
  }

  /** Row-major layout: the buffer has one cell per matrix cell, and cell
      (i, j) sits at Offset(i, w) + j, that is at i*w + j. */
  lemma FlattenLayout(rows: seq<seq<int>>, w: nat)
    requires Uniform(rows, w)
    ensures |Flatten(rows)| == Offset(|rows|, w)
    ensures forall i, j :: 0 <= i < |rows| && 0 <= j < w ==> CellAt(Flatten(rows), rows, w, i, j)
  {
    FlattenLength(rows, w);
    forall i, j | 0 <= i < |rows| && 0 <= j < w
      ensures CellAt(Flatten(rows), rows, w, i, j)
    {
      FlattenCell(rows, w, i, j);
    }
  }

  /** Cell (i, j) of an n-wide matrix sits at i*n + j of flat. */
  predicate RowMajorAt(flat: seq<int>, rows: seq<seq<int>>, n: nat, i: nat, j: nat)
    requires Uniform(rows, n) && i < |rows| && j < n
  {
    i * n + j < |flat| && flat[i * n + j] == rows[i][j]
  }

  lemma RowMajorCell(rows: seq<seq<int>>, n: nat, i: nat, j: nat)
    requires Uniform(rows, n) && i < |rows| && j < n
    ensures RowMajorAt(Flatten(rows), rows, n, i, j)
  {
    FlattenCell(rows, n, i, j);
    OffsetIsProduct(i, n);
  }

  /** The row-major promise for the n×n matrix: the buffer has n*n cells and
      `flattened[i*n + j]` is `grafo[i][j]`. */
  lemma FlattenRowMajor(rows: seq<seq<int>>, n: nat)
    requires Uniform(rows, n) && |rows| == n
    ensures |Flatten(rows)| == n * n
    ensures forall i, j :: 0 <= i < n && 0 <= j < n ==> RowMajorAt(Flatten(rows), rows, n, i, j)
  {
    FlattenLength(rows, n);
    OffsetIsProduct(n, n);
    forall i, j | 0 <= i < n && 0 <= j < n
      ensures RowMajorAt(Flatten(rows), rows, n, i, j)
    {
      RowMajorCell(rows, n, i, j);
    }
  }

  /** Cutting the flattened rows back gives the rows. */
  lemma {:induction false} RebuildFlatten(rows: seq<seq<int>>, w: nat)
    requires Uniform(rows, w)
    ensures |Flatten(rows)| == Offset(|rows|, w)
    ensures Rebuild(Flatten(rows), w, |rows|) == rows
  {
    FlattenLength(rows, w);
    if rows != [] {
      var front := rows[..|rows| - 1];
      var flat := Flatten(rows);
      RebuildFlatten(front, w);
      assert flat[..|flat| - w] == Flatten(front);
      assert flat[|flat| - w..] == rows[|rows| - 1];
      assert rows == front + [rows[|rows| - 1]];
    }
  }

  /** Flattening the cut rows gives the array back. */
  lemma {:induction false} FlattenRebuild(flat: seq<int>, w: nat, count: nat)
    requires |flat| == Offset(count, w)
    ensures Flatten(Rebuild(flat, w, count)) == flat
    decreases count
  {
    if count > 0 {
      var rows := Rebuild(flat, w, count);
      FlattenRebuild(flat[..|flat| - w], w, count - 1);
      assert rows[..|rows| - 1] == Rebuild(flat[..|flat| - w], w, count - 1);
      assert flat == flat[..|flat| - w] + flat[|flat| - w..];
    }
  }

  /** Row i of the rebuilt matrix holds the cells i*n up to (i+1)*n of the
      array, as `emplace_back` copies them. */
  lemma RebuildRows(flat: seq<int>, n: nat)
    requires |flat| == n * n
    ensures |flat| == Offset(n, n)
    ensures forall i, j :: 0 <= i < n && 0 <= j < n ==> CellAt(flat, Rebuild(flat, n, n), n, i, j)
  {
    OffsetIsProduct(n, n);
    FlattenRebuild(flat, n, n);
    FlattenLayout(Rebuild(flat, n, n), n);
  }

  /** The matrix rank r works on: rank 0 has the one it read, the others the
      one rebuilt from the broadcast array. Both are the same matrix. */
  function RankGraph(g: Matrix, rank: nat): (h: Matrix)
    requires Square(g)
    ensures h == g
  {
    RebuildFlatten(g, |g|);
    if rank == 0 then g else Rebuild(Flatten(g), |g|, |g|)
  }

  /** `procCandidatosParaVerificar`, `iStart` and `iEnd` of one rank, as
      written: every rank gets n / size roots, so the ranges are inside
      [0, size * (n / size)) and the last n % size roots belong to no rank. */
  function WrittenRange(n: nat, size: nat, rank: nat): (b: (nat, nat))
    requires size >= 1 && rank < size
    ensures b.0 <= b.1 <= size * (n / size) <= n
    ensures b.1 - b.0 == n / size
  {
    var c := n / size;
    MulMono(rank + 1, size, c);
    (rank * c, rank * c + c)
  }

  /** The range the evidently intended split gives one rank: the first
      n % size ranks take one root more, so the ranges tile [0, n). */
  function FixedRange(n: nat, size: nat, rank: nat): (b: (nat, nat))
    requires size >= 1 && rank < size
    ensures b.0 <= b.1 <= n
    ensures b.1 - b.0 == n / size + (if rank < n % size then 1 else 0)
  {
    MulMono(rank + 1, size, n / size);
    (FixedStart(n, size, rank), FixedStart(n, size, rank + 1))
  }

  function FixedStart(n: nat, size: nat, rank: nat): nat
    requires size >= 1
  {
    rank * (n / size) + (if rank < n % size then rank else n % size)
  }

  /** The written ranges are consecutive: each ends where the next begins. */
  lemma WrittenContiguous(n: nat, size: nat, rank: nat)
    requires size >= 1 && rank + 1 < size
    ensures WrittenRange(n, size, rank).1 == WrittenRange(n, size, rank + 1).0
  {
  }

  /** Ranges of different ranks do not overlap: a lower rank's range ends
      before a higher rank's range begins. */
  lemma WrittenDisjoint(n: nat, size: nat, r1: nat, r2: nat)
    requires size >= 1 && r1 < r2 < size
    ensures WrittenRange(n, size, r1).1 <= WrittenRange(n, size, r2).0
  {
    MulMono(r1 + 1, r2, n / size);
  }

  /** Every root below size * (n / size) belongs to a rank's written range. */
  lemma WrittenCovers(n: nat, size: nat, v: nat)
    requires size >= 1 && v < size * (n / size)
    ensures exists r :: 0 <= r < size && WrittenRange(n, size, r).0 <= v < WrittenRange(n, size, r).1
  {
    var c := n / size;
    if c > 0 {
      var r := v / c;
      if r >= size {
        MulMono(size, r, c);
      }
      assert WrittenRange(n, size, r).0 <= v < WrittenRange(n, size, r).1;
    }
  }

  /** The remaining roots, size * (n / size) <= v < n, belong to no written range. */
  lemma WrittenMisses(n: nat, size: nat, v: nat, r: nat)
    requires size >= 1 && r < size && size * (n / size) <= v
    ensures !(WrittenRange(n, size, r).0 <= v < WrittenRange(n, size, r).1)
  {
  }

  /** The fixed ranges tile [0, n): every root lies in some rank's range. */
  lemma {:induction false} FixedCovers(n: nat, size: nat, k: nat, v: nat)
    requires size >= 1 && k < size && FixedStart(n, size, k) <= v < n
    ensures exists r :: k <= r < size && FixedRange(n, size, r).0 <= v < FixedRange(n, size, r).1
    decreases size - k
  {
    assert FixedStart(n, size, size) == n;
    if v >= FixedStart(n, size, k + 1) {
      FixedCovers(n, size, k + 1, v);
    } else {
      assert FixedRange(n, size, k).0 <= v < FixedRange(n, size, k).1;
    }
  }

  /** Whenever size divides n the written and the fixed ranges coincide. */
  lemma RangesAgree(n: nat, size: nat, rank: nat)
    requires size >= 1 && rank < size && n % size == 0
    ensures WrittenRange(n, size, rank) == FixedRange(n, size, rank)
  {
  }

  /** The answer of every rank: the root loop over its range, on its copy of
      the matrix. */
  function LocalResults(g: Matrix, size: nat, fixed: bool): (rs: seq<seq<nat>>)
    requires WellFormed(g) && size >= 1
    ensures |rs| == size
    ensures forall r :: 0 <= r < size ==> IsClique(g, rs[r]) && Distinct(rs[r])
    ensures forall r :: 0 <= r < size ==>
              var b := if fixed then FixedRange(|g|, size, r) else WrittenRange(|g|, size, r);
              rs[r] == ScanRange(g, b.0, b.1)
  {
    seq(size, r requires 0 <= r < size =>
      var b := if fixed then FixedRange(|g|, size, r) else WrittenRange(|g|, size, r);
      ScanRange(RankGraph(g, r), b.0, b.1))
  }

  /** Rank 0 starts from its own answer and takes the answer of rank 1, 2, ...
      when it is strictly longer: the earliest rank among the longest answers wins. */
  function Gather(results: seq<seq<nat>>): (r: seq<nat>)
    requires |results| >= 1
    ensures exists k :: FirstLongest(results, k) && r == results[k]
  {
    GatherPicksFirstLongest(results);
    Fold(results[0], results[1..])
  }

  lemma GatherPicksFirstLongest(results: seq<seq<nat>>)
    requires |results| >= 1
    ensures exists k :: FirstLongest(results, k) && Fold(results[0], results[1..]) == results[k]
  {
    var rest := results[1..];
    FoldPicksFirstLongest(results[0], rest);
    if Fold(results[0], rest) == results[0] && forall i :: 0 <= i < |rest| ==> |rest[i]| <= |results[0]| {
      assert FirstLongest(results, 0);
    } else {
      var k :| FirstLongest(rest, k) && Fold(results[0], rest) == rest[k] && |rest[k]| > |results[0]|;
      assert FirstLongest(results, k + 1);
    }
  }

  /** The distributed program's printed clique, with the written split
      (fixed == false) or the intended one (fixed == true). */
  function DistributedClique(g: Matrix, size: nat, fixed: bool): (r: seq<nat>)
    requires WellFormed(g) && size >= 1
    ensures IsClique(g, r) && Distinct(r)
  {
    Gather(LocalResults(g, size, fixed))
  }

  /** A clique at least as long as the sequential answer is a maximum clique. */
  lemma AtLeastMaximum(g: Matrix, d: seq<nat>)
    requires WellFormed(g) && IsClique(g, d) && |d| >= |FindMaxClique(g)|
    ensures MaximumClique(g, d)
  {
    FindMaxCliqueIsMaximum(g);
  }

  /** A clique with a member in some rank's range is no larger than the
      gathered answer: that rank's answer already matches it. */
  lemma GatherCovers(g: Matrix, size: nat, fixed: bool, r: nat, K: set<nat>, v: nat)
    requires WellFormed(g) && size >= 1 && r < size
    requires CliqueSet(g, K) && v in K
    requires var b := if fixed then FixedRange(|g|, size, r) else WrittenRange(|g|, size, r);
             b.0 <= v < b.1
    ensures |K| <= |DistributedClique(g, size, fixed)|
  {
    var rs := LocalResults(g, size, fixed);
    var b := if fixed then FixedRange(|g|, size, r) else WrittenRange(|g|, size, r);
    ScanRangeCovers(g, b.0, b.1, K, v);
    assert rs[r] == ScanRange(g, b.0, b.1);
  }

  lemma DivisibleSplit(n: nat, size: nat)
    requires size >= 1 && n % size == 0
    ensures n == size * (n / size)
  {
  }

  /** With the written split the gathered clique is a maximum clique whenever
      the number of ranks divides the number of vertices. */
  lemma WrittenExactWhenDivisible(g: Matrix, size: nat)
    requires WellFormed(g) && size >= 1 && |g| % size == 0
    ensures MaximumClique(g, DistributedClique(g, size, false))
  {
    FindMaxCliqueIsMaximum(g);
    if |g| == 0 {
      AtLeastMaximum(g, DistributedClique(g, size, false));
    } else {
      var v := FindMaxClique(g)[0];
      DivisibleSplit(|g|, size);
      WrittenCovers(|g|, size, v);
      var r :| 0 <= r < size && WrittenRange(|g|, size, r).0 <= v < WrittenRange(|g|, size, r).1;
      CliqueAsSet(g, FindMaxClique(g));
      GatherCovers(g, size, false, r, Members(FindMaxClique(g)), v);
      AtLeastMaximum(g, DistributedClique(g, size, false));
    }
  }

  /** So when size divides n the distributed program prints a clique of the
      same size as the single-process program. */
  lemma WrittenSizeWhenDivisible(g: Matrix, size: nat)
    requires WellFormed(g) && size >= 1 && |g| % size == 0
    ensures |DistributedClique(g, size, false)| == |FindMaxClique(g)|
  {
    WrittenExactWhenDivisible(g, size);
    FindMaxCliqueIsMaximum(g);
    MaximumSizesAgree(g, DistributedClique(g, size, false), FindMaxClique(g));
  }

  /** With the intended split the gathered clique is always a maximum clique. */
  lemma FixedIsMaximum(g: Matrix, size: nat)
    requires WellFormed(g) && size >= 1
    ensures MaximumClique(g, DistributedClique(g, size, true))
  {
    if |g| > 0 {
      FixedCoversAnswer(g, size);
    }
    AtLeastMaximum(g, DistributedClique(g, size, true));
  }

  /** Under the corrected split the first vertex of the sequential answer is
      some rank's root, so the gathered answer is at least as long. */
  lemma FixedCoversAnswer(g: Matrix, size: nat)
    requires WellFormed(g) && size >= 1 && |g| > 0
    ensures |FindMaxClique(g)| <= |DistributedClique(g, size, true)|
  {
    FindMaxCliqueIsMaximum(g);
    var m := FindMaxClique(g);
    var v := m[0];
    FixedCovers(|g|, size, 0, v);
    var r :| 0 <= r < size && FixedRange(|g|, size, r).0 <= v < FixedRange(|g|, size, r).1;
    CliqueAsSet(g, m);
    GatherCovers(g, size, true, r, Members(m), v);
  }

  /** With more ranks than vertices every rank gets an empty range, every
      local answer is empty, and so is the gathered one. */
  lemma TooManyRanks(g: Matrix, size: nat)
    requires WellFormed(g) && size > |g|
    ensures forall r :: 0 <= r < size ==> LocalResults(g, size, false)[r] == []
    ensures DistributedClique(g, size, false) == []
  {
    var rs := LocalResults(g, size, false);
    assert |g| / size == 0;
    forall r | 0 <= r < size
      ensures rs[r] == []
    {
      assert WrittenRange(|g|, size, r).1 - WrittenRange(|g|, size, r).0 == 0;
    }
  }

  /** The written split loses the remainder: on the one-vertex graph with two
      ranks, both ranks get the empty range and the printed clique is empty,
      while the sequential program prints the vertex. */
  lemma WrittenDropsRemainder()
    ensures var g: Matrix := [[0]];
            WellFormed(g) && DistributedClique(g, 2, false) == [] && FindMaxClique(g) == [0]
  {
    SingleVertex();
    TooManyRanks([[0]], 2);
  }
}

=== FILE: exhaustive.dfy ===
/** The exhaustive demo: every subset of the vertices is tried by an
    include/exclude recursion over the vertex ids, and a complete subset
    replaces the best one when it is strictly longer and pairwise joined.
    `cliqueAtual` is passed by value here, so the push before the include
    branch and the pop after it leave the caller's list as it was by
    construction. */
module Exhaustive {
  import opened Graph
  import opened RootScan

  /** `formaClique`: the nested loop over all pairs i < j, returning false at
      the first pair that is not joined. */
  method FormsClique(g: Matrix, vs: seq<nat>) returns (b: bool)
    requires Square(g) && Vertices(g, vs)
    ensures b <==> IsClique(g, vs)
  {
    var i := 0;
    while i < |vs|
      invariant 0 <= i <= |vs|
      invariant forall a, c :: 0 <= a < i && a < c < |vs| ==> g[vs[a]][vs[c]] != 0
    {
      var j := i + 1;
      while j < |vs|
        invariant i + 1 <= j <= |vs|
        invariant forall c :: i < c < j ==> g[vs[i]][vs[c]] != 0
      {
        if g[vs[i]][vs[j]] == 0 {
          return false;
        }
        j := j + 1;
      }
      i := i + 1;
    }
    return true;
  }

  /** All members lie in [lo, hi). */
  predicate Within(s: seq<nat>, lo: nat, hi: nat) {
    forall i :: 0 <= i < |s| ==> lo <= s[i] < hi
  }

  /** `encontrarCliqueMaximaRec` of the demo: the best list after deciding
      the vertices v, v+1, ..., n-1 on top of `cur`. The result is the
      incoming best or a strictly longer clique made of `cur` followed by
      increasing ids from v on. */
  function Search(g: Matrix, cur: seq<nat>, best: seq<nat>, v: nat): (r: seq<nat>)
    requires WellFormed(g) && v <= |g| && Vertices(g, cur)
    ensures |r| >= |best|
    ensures r == best || (IsClique(g, r) && |r| > |best|)
    ensures Increasing(cur) && (forall i :: 0 <= i < |cur| ==> cur[i] < v) ==> r == best || Increasing(r)
    decreases |g| - v
  {
    if v == |g| then
      if |cur| > |best| && IsClique(g, cur) then cur else best
    else
      var withV := Search(g, cur + [v], best, v + 1);
      Search(g, cur, withV, v + 1)
  }

  /** The recursion as the demo writes it, with `formaClique` evaluated only
      when the current list is strictly longer. */
  method SearchRec(g: Matrix, cur: seq<nat>, best: seq<nat>, v: nat) returns (r: seq<nat>)
    requires WellFormed(g) && v <= |g| && Vertices(g, cur)
    ensures r == Search(g, cur, best, v)
    decreases |g| - v
  {
    if v == |g| {
      r := best;
      if |cur| > |best| {
        var ok := FormsClique(g, cur);
        if ok {
          r := cur;
        }
      }
      return;
    }
    var withV := SearchRec(g, cur + [v], best, v + 1);
    r := SearchRec(g, cur, withV, v + 1);
  }

  /** Every choice is tried: for any increasing list ext of ids from v on
      such that cur + ext is a clique, the search returns at least that many
      vertices. */
  lemma {:induction false} SearchFindsEvery(g: Matrix, cur: seq<nat>, best: seq<nat>, v: nat, ext: seq<nat>)
    requires WellFormed(g) && v <= |g| && Vertices(g, cur)
    requires Increasing(ext) && Within(ext, v, |g|) && IsClique(g, cur + ext)
    ensures |cur + ext| <= |Search(g, cur, best, v)|
    decreases |g| - v
  {
    if v == |g| {
      WithinNonEmpty(ext, v, |g|);
      assert ext == [];
      assert cur + ext == cur;
    } else {
      var withV := Search(g, cur + [v], best, v + 1);
      assert Search(g, cur, best, v) == Search(g, cur, withV, v + 1);
      if ext != [] && ext[0] == v {
        var tail := ext[1..];
        TakeFirst(ext, v, |g|);
        assert cur + ext == (cur + [v]) + tail;
        SearchFindsEvery(g, cur + [v], best, v + 1, tail);
      } else {
        SkipFirst(ext, v, |g|);
        SearchFindsEvery(g, cur, withV, v + 1, ext);
      }
    }
  }

  /** A non-empty list within [lo, hi) needs a non-empty range. */
  lemma WithinNonEmpty(s: seq<nat>, lo: nat, hi: nat)
    requires Within(s, lo, hi)
    ensures |s| > 0 ==> lo < hi
  {
    if |s| > 0 {
      assert lo <= s[0] < hi;
    }
  }

  /** An increasing list from v on that starts with v continues above v. */
  lemma TakeFirst(ext: seq<nat>, v: nat, n: nat)
    requires Increasing(ext) && Within(ext, v, n) && ext != [] && ext[0] == v
    ensures Increasing(ext[1..]) && Within(ext[1..], v + 1, n)
  {
    forall i | 0 <= i < |ext| - 1
      ensures v + 1 <= ext[1..][i]
    {
      assert ext[0] < ext[i + 1];
    }
  }

  /** An increasing list from v on that does not start with v lies above v. */
  lemma SkipFirst(ext: seq<nat>, v: nat, n: nat)
    requires Increasing(ext) && Within(ext, v, n) && (ext == [] || ext[0] != v)
    ensures Within(ext, v + 1, n)
  {
    forall i | 0 <= i < |ext|
      ensures v + 1 <= ext[i]
    {
      if i > 0 {
        assert ext[0] < ext[i];
      }
    }
  }

  /** The members of K below n, in increasing order. */
  function Ascending(K: set<nat>, n: nat): (s: seq<nat>)
    ensures Increasing(s) && Within(s, 0, n)
    ensures forall i :: 0 <= i < |s| ==> s[i] in K
    ensures forall u :: u in K && u < n ==> u in s
  {
    if n == 0 then [] else Ascending(K, n - 1) + (if n - 1 in K then [n - 1] else [])
  }

  /** `encontrarCliqueMaxima` of the demo: start from two empty lists at vertex 0. */
  function Oracle(g: Matrix): (r: seq<nat>)
    requires WellFormed(g)
    ensures IsClique(g, r) && Increasing(r)
  {
    Search(g, [], [], 0)
  }

  /** The exhaustive search returns a maximum clique, empty exactly when the
      graph has no vertex. */
  lemma OracleIsMaximum(g: Matrix)
    requires WellFormed(g)
    ensures MaximumClique(g, Oracle(g))
    ensures Oracle(g) == [] <==> |g| == 0
  {
    forall K | CliqueSet(g, K)
      ensures |K| <= |Oracle(g)|
    {
      var s := Ascending(K, |g|);
      forall i, j | 0 <= i < j < |s|
        ensures g[s[i]][s[j]] != 0
      {
        assert s[i] != s[j];
      }
      assert [] + s == s;
      SearchFindsEvery(g, [], [], 0, s);
      assert Members(s) == K;
      DistinctCard(s);
    }
    if |g| > 0 {
      assert CliqueSet(g, {0});
    }
  }

  /** The kernel program and the exhaustive search agree on the size of the
      clique they print. */
  lemma KernelMatchesOracle(g: Matrix)
    requires WellFormed(g)
    ensures |FindMaxClique(g)| == |Oracle(g)|
  {
    FindMaxCliqueIsMaximum(g);
    OracleIsMaximum(g);
    MaximumSizesAgree(g, FindMaxClique(g), Oracle(g));
  }
}

=== FILE: graph.dfy ===
/** The adjacency matrix every search works on, and the vocabulary shared by
    all of them: cliques (as ordered lists and as sets), candidate filtering
    and the two adjacency tests the programs repeat in every loop. */
module Graph {

  /** `g[u][v] != 0` means that vertices u and v are joined by an edge. */
  type Matrix = seq<seq<int>>

  predicate Square(g: Matrix) {
    forall i :: 0 <= i < |g| ==> |g[i]| == |g|
  }

  predicate ZeroOne(g: Matrix)
    requires Square(g)
  {
    forall i, j :: 0 <= i < |g| && 0 <= j < |g| ==> g[i][j] == 0 || g[i][j] == 1
  }

  predicate Symmetric(g: Matrix)
    requires Square(g)
  {
    forall i, j :: 0 <= i < |g| && 0 <= j < |g| ==> g[i][j] == g[j][i]
  }

  /** No vertex is adjacent to itself. */
  predicate Loopless(g: Matrix)
    requires Square(g)
  {
    forall i :: 0 <= i < |g| ==> g[i][i] == 0
  }

  /** The graph the edge-list reader builds: an undirected simple graph. */
  predicate WellFormed(g: Matrix) {
    Square(g) && ZeroOne(g) && Symmetric(g) && Loopless(g)
  }

  /** Every listed id is a vertex of g. */
  predicate Vertices(g: Matrix, s: seq<nat>) {
    forall i :: 0 <= i < |s| ==> s[i] < |g|
  }

  /** The ids lo, lo+1, ..., hi-1 in increasing order. */
  function Range(lo: nat, hi: nat): (s: seq<nat>)
    requires lo <= hi
    ensures |s| == hi - lo
    ensures forall i :: 0 <= i < |s| ==> s[i] == lo + i
  {
    seq(hi - lo, i => lo + i)
  }

  /** u is joined to every member of K: the test of every candidate filter. */
  predicate AdjacentToAll(g: Matrix, u: nat, K: seq<nat>)
    requires Square(g) && u < |g| && Vertices(g, K)
  {
    forall i :: 0 <= i < |K| ==> g[u][K[i]] != 0
  }

  /** Every member of K is joined to v: the re-check made before extending a clique. */
  predicate AllAdjacentTo(g: Matrix, K: seq<nat>, v: nat)
    requires Square(g) && v < |g| && Vertices(g, K)
  {
    forall i :: 0 <= i < |K| ==> g[K[i]][v] != 0
  }

  /** A list of vertices is a clique when each member is joined to every later one. */
  predicate IsClique(g: Matrix, s: seq<nat>)
    requires Square(g)
  {
    Vertices(g, s) && forall i, j :: 0 <= i < j < |s| ==> g[s[i]][s[j]] != 0
  }

  predicate Distinct(s: seq<nat>) {
    forall i, j :: 0 <= i < j < |s| ==> s[i] != s[j]
  }

  predicate Increasing(s: seq<nat>) {
    forall i, j :: 0 <= i < j < |s| ==> s[i] < s[j]
  }

  /** A set of vertices that are pairwise joined. */
  ghost predicate CliqueSet(g: Matrix, K: set<nat>)
    requires Square(g)
  {
    && (forall a :: a in K ==> a < |g|)
    && (forall a, b :: a in K && b in K && a != b ==> g[a][b] != 0)
  }

  /** r is a clique and no clique of g has more vertices. */
  ghost predicate MaximumClique(g: Matrix, r: seq<nat>)
    requires Square(g)
  {
    IsClique(g, r) && forall K :: CliqueSet(g, K) ==> |K| <= |r|
  }

  /** The members of C that are joined to every member of K, in the order of C. */
  function Filter(g: Matrix, K: seq<nat>, C: seq<nat>): (r: seq<nat>)
    requires Square(g) && Vertices(g, K) && Vertices(g, C)
    ensures Vertices(g, r) && |r| <= |C|
    ensures forall i :: 0 <= i < |r| ==> r[i] in C && AdjacentToAll(g, r[i], K)
    ensures forall i :: 0 <= i < |C| && AdjacentToAll(g, C[i], K) ==> C[i] in r
  {
    if C == [] then []
    else
      var u := C[|C| - 1];
      Filter(g, K, C[..|C| - 1]) + (if AdjacentToAll(g, u, K) then [u] else [])
  }

  /** A one-element list is kept exactly when its element is joined to all of K. */
  lemma FilterSingle(g: Matrix, K: seq<nat>, u: nat)
    requires Square(g) && Vertices(g, K) && u < |g|
    ensures Filter(g, K, [u]) == if AdjacentToAll(g, u, K) then [u] else []
  {
    assert [u][..0] == [];
  }

  /** Filtering distributes over concatenation: the kept entries appear in the
      order of the list, each as often as it is listed. */
  lemma {:induction false} FilterAppend(g: Matrix, K: seq<nat>, A: seq<nat>, B: seq<nat>)
    requires Square(g) && Vertices(g, K) && Vertices(g, A) && Vertices(g, B)
    ensures Filter(g, K, A + B) == Filter(g, K, A) + Filter(g, K, B)
    decreases |B|
  {
    if B == [] {
      assert A + B == A;
    } else {
      var front := B[..|B| - 1];
      assert (A + B)[..|A + B| - 1] == A + front;
      FilterAppend(g, K, A, front);
    }
  }

  /** Filtering a list against a vertex u drops u itself, so the result is
      strictly shorter whenever u is listed: the recursion measure of the kernel. */
  lemma {:induction false} FilterDropsSelf(g: Matrix, C: seq<nat>, u: nat)
    requires Square(g) && Loopless(g) && Vertices(g, C) && u in C
    ensures |Filter(g, [u], C)| < |C|
    decreases |C|
  {
    var last := C[|C| - 1];
    var front := C[..|C| - 1];
    assert C == front + [last];
    if last == u {
      assert !AdjacentToAll(g, u, [u]);
    } else {
      assert u in front;
      FilterDropsSelf(g, front, u);
    }
  }

  /** In a graph without self-loops a clique never lists a vertex twice. */
  lemma CliqueIsDistinct(g: Matrix, s: seq<nat>)
    requires Square(g) && Loopless(g) && IsClique(g, s)
    ensures Distinct(s)
  {
    forall i, j | 0 <= i < j < |s|
      ensures s[i] != s[j]
    {
      assert g[s[i]][s[j]] != 0;
    }
  }

  /** The set of vertices a list mentions. */
  function Members(s: seq<nat>): set<nat> {
    set x | x in s
  }

  lemma {:induction false} DistinctCard(s: seq<nat>)
    requires Distinct(s)
    ensures |Members(s)| == |s|
  {
    if s != [] {
      var front := s[..|s| - 1];
      var last := s[|s| - 1];
      assert s == front + [last];
      assert Members(s) == Members(front) + {last};
      forall k | 0 <= k < |front|
        ensures front[k] != last
      {
        assert front[k] == s[k];
      }
      DistinctCard(front);
    }
  }

  /** An ordered clique of an undirected graph, read as a set, is a clique of
      the same size. */
  lemma CliqueAsSet(g: Matrix, s: seq<nat>)
    requires WellFormed(g) && IsClique(g, s)
    ensures CliqueSet(g, Members(s)) && |Members(s)| == |s|
  {
    forall a, b | a in Members(s) && b in Members(s) && a != b
      ensures g[a][b] != 0
    {
      var i :| 0 <= i < |s| && s[i] == a;
      var j :| 0 <= j < |s| && s[j] == b;
      if i < j {
        assert g[s[i]][s[j]] != 0;
      } else {
        assert g[s[j]][s[i]] != 0;
      }
    }
    CliqueIsDistinct(g, s);
    DistinctCard(s);
  }

  /** Two maximum cliques of the same graph have the same size. */
  lemma MaximumSizesAgree(g: Matrix, a: seq<nat>, b: seq<nat>)
    requires WellFormed(g) && MaximumClique(g, a) && MaximumClique(g, b)
    ensures |a| == |b|
  {
    CliqueAsSet(g, a);
    CliqueAsSet(g, b);
  }

  /** Joined to all of K + [u] means joined to all of K and to u. */
  lemma AdjacentToPrefix(g: Matrix, c: nat, K: seq<nat>, u: nat)
    requires Square(g) && c < |g| && u < |g| && Vertices(g, K)
    requires AdjacentToAll(g, c, K + [u])
    ensures AdjacentToAll(g, c, K) && g[c][u] != 0
  {
    assert forall i :: 0 <= i < |K| ==> (K + [u])[i] == K[i];
    assert (K + [u])[|K|] == u;
  }

  /** A vertex joined to every member of a clique extends it to a clique. */
  lemma AppendKeepsClique(g: Matrix, K: seq<nat>, u: nat)
    requires WellFormed(g) && u < |g| && IsClique(g, K) && AdjacentToAll(g, u, K)
    ensures IsClique(g, K + [u])
  {
    var s := K + [u];
    forall i, j | 0 <= i < j < |s|
      ensures g[s[i]][s[j]] != 0
    {
      if j == |K| {
        assert g[u][K[i]] != 0;
      }
    }
  }
}

=== FILE: heuristic.dfy ===
/** The adjacency heuristic: repeatedly move the candidate adjacent to the most
    other candidates into the clique, then keep only the candidates joined to
    every clique member. One greedy pass, no backtracking. */
module Heuristic {
  import opened Graph
  import opened RootScan
  import opened Checks

  /** The number of entries of C that u is joined to (`grafo[u][c] == 1`). */
  function Adjacency(g: Matrix, u: nat, C: seq<nat>): (count: nat)
    requires Square(g) && u < |g| && Vertices(g, C)
    ensures count <= |C|
  {
    if C == [] then 0
    else Adjacency(g, u, C[..|C| - 1]) + (if g[u][C[|C| - 1]] == 1 then 1 else 0)
  }

  /** Position k holds the first candidate with the most adjacencies among the candidates. */
  predicate FirstMost(g: Matrix, C: seq<nat>, k: int)
    requires Square(g) && Vertices(g, C)
  {
    && 0 <= k < |C|
    && (forall i :: 0 <= i < |C| ==> Adjacency(g, C[i], C) <= Adjacency(g, C[k], C))
    && (forall i :: 0 <= i < k ==> Adjacency(g, C[i], C) < Adjacency(g, C[k], C))
  }

  /** The inner loop of `encontraCandidatoSegundoHeuristica`: count the
      candidates u is joined to. */
  method CountAdjacency(g: Matrix, u: nat, C: seq<nat>) returns (count: nat)
    requires Square(g) && u < |g| && Vertices(g, C)
    ensures count == Adjacency(g, u, C)
  {
    count := 0;
    var j := 0;
    while j < |C|
      invariant 0 <= j <= |C|
      invariant count == Adjacency(g, u, C[..j])
    {
      if g[u][C[j]] == 1 {
        count := count + 1;
      }
      assert C[..j + 1][..j] == C[..j];
      j := j + 1;
    }
    assert C[..|C|] == C;
  }

  /** `encontraCandidatoSegundoHeuristica`: the index of the first candidate
      with the most adjacencies, or -1 when there is no candidate. */
  method PickCandidate(g: Matrix, C: seq<nat>) returns (k: int)
    requires Square(g) && Vertices(g, C)
    ensures k == -1 <==> C == []
    ensures C != [] ==> FirstMost(g, C, k)
  {
    var most: int := -1;
    k := -1;
    var i := 0;
    while i < |C|
      invariant 0 <= i <= |C|
      invariant k == -1 <==> i == 0
      invariant i == 0 ==> most == -1
      invariant i > 0 ==> 0 <= k < i && most == Adjacency(g, C[k], C)
      invariant forall j :: 0 <= j < i ==> Adjacency(g, C[j], C) <= most
      invariant forall j :: 0 <= j < k ==> Adjacency(g, C[j], C) < most
    {
      var count := CountAdjacency(g, C[i], C);
      if count > most {
        most := count;
        k := i;
      }
      i := i + 1;
    }
  }

  /** The list with position k erased. */
  function Erase(C: seq<nat>, k: nat): (rest: seq<nat>)
    requires k < |C|
    ensures |rest| == |C| - 1
    ensures forall i :: 0 <= i < |C| && i != k ==> C[i] in rest
    ensures forall i :: 0 <= i < |rest| ==> rest[i] in C
    ensures C == rest[..k] + [C[k]] + rest[k..]
  {
    assert forall i :: 0 <= i < |C| && i > k ==> C[i] == C[k + 1..][i - k - 1];
    C[..k] + C[k + 1..]
  }

  /** `encontrarCliqueMaximaHeuristica`: the greedy pass. The result is a
      clique drawn from the candidates, and no candidate outside it is joined
      to all of its members: it cannot be grown from the list. */
  method GreedyClique(g: Matrix, candidates: seq<nat>) returns (clique: seq<nat>)
    requires WellFormed(g) && Vertices(g, candidates)
    ensures IsClique(g, clique) && Distinct(clique)
    ensures forall i :: 0 <= i < |clique| ==> clique[i] in candidates
    ensures forall i :: 0 <= i < |candidates| ==>
              candidates[i] in clique || !AdjacentToAll(g, candidates[i], clique)
    ensures candidates != [] ==> clique != []
  {
    clique := [];
    var C := candidates;
    while |C| > 0
      invariant Vertices(g, C) && IsClique(g, clique)
      invariant forall i :: 0 <= i < |C| ==> C[i] in candidates && AdjacentToAll(g, C[i], clique)
      invariant forall i :: 0 <= i < |clique| ==> clique[i] in candidates
      invariant forall i ::
                  (0 <= i < |candidates| && candidates[i] !in clique && AdjacentToAll(g, candidates[i], clique))
                  ==> candidates[i] in C
      invariant candidates != [] ==> clique != [] || C == candidates
      decreases |C|
    {
      var k := PickCandidate(g, C);
      var u := C[k];
      var rest := Erase(C, k);
      var next := clique + [u];
      AppendKeepsClique(g, clique, u);
      var filtered := FilterLoop(g, next, rest);
      GreedyKeeps(g, candidates, clique, C, k);
      clique := next;
      C := filtered;
    }
    CliqueIsDistinct(g, clique);
  }

  /** One greedy step loses no candidate that could still extend the clique:
      such a candidate was in the list, is not the one taken, and passes the
      filter against the grown clique. */
  lemma GreedyKeeps(g: Matrix, candidates: seq<nat>, clique: seq<nat>, C: seq<nat>, k: nat)
    requires WellFormed(g) && Vertices(g, candidates) && Vertices(g, clique) && Vertices(g, C) && k < |C|
    requires forall i ::
               (0 <= i < |candidates| && candidates[i] !in clique && AdjacentToAll(g, candidates[i], clique))
               ==> candidates[i] in C
    requires forall i :: 0 <= i < |C| ==> C[i] in candidates
    ensures forall i ::
              (0 <= i < |candidates| && candidates[i] !in clique + [C[k]]
               && AdjacentToAll(g, candidates[i], clique + [C[k]]))
              ==> candidates[i] in Filter(g, clique + [C[k]], Erase(C, k))
    ensures forall i :: 0 <= i < |Filter(g, clique + [C[k]], Erase(C, k))| ==>
              Filter(g, clique + [C[k]], Erase(C, k))[i] in candidates
    ensures |Filter(g, clique + [C[k]], Erase(C, k))| < |C|
  {
    var next := clique + [C[k]];
    var rest := Erase(C, k);
    var filtered := Filter(g, next, rest);
    forall i | 0 <= i < |filtered|
      ensures filtered[i] in candidates
    {
      var p :| 0 <= p < |rest| && rest[p] == filtered[i];
      var m :| 0 <= m < |C| && C[m] == rest[p];
    }
    forall i | 0 <= i < |candidates| && candidates[i] !in next && AdjacentToAll(g, candidates[i], next)
      ensures candidates[i] in Filter(g, next, rest)
    {
      var c := candidates[i];
      AdjacentToPrefix(g, c, clique, C[k]);
      var m :| 0 <= m < |C| && C[m] == c;
      assert m != k;
      var p :| 0 <= p < |rest| && rest[p] == c;
    }
  }

  /** `encontrarCliqueMaxima` of the heuristic program: the greedy pass over
      all vertices. It returns a clique that no vertex can extend, empty
      exactly when the graph is, and never larger than a maximum clique. */
  method HeuristicClique(g: Matrix) returns (r: seq<nat>)
    requires WellFormed(g)
    ensures IsClique(g, r) && Distinct(r)
    ensures r == [] <==> |g| == 0
    ensures forall u :: 0 <= u < |g| ==> u in r || !AdjacentToAll(g, u, r)
    ensures |r| <= |FindMaxClique(g)|
  {
    var candidates := Range(0, |g|);
    r := GreedyClique(g, candidates);
    forall u | 0 <= u < |g|
      ensures u in r || !AdjacentToAll(g, u, r)
    {
      assert candidates[u] == u;
    }
    FindMaxCliqueIsMaximum(g);
    CliqueAsSet(g, r);
  }
}

=== FILE: indexed.dfy ===
/** The index-loop program (simulacoes-cluster): the same kernel and root loop
    written with `for (int i = 0; ...)` loops. Read sequentially, both compute
    exactly the functional kernel and root scan. */
module Indexed {
  import opened Graph
  import opened Kernel
  import opened Reduce
  import opened RootScan
  import opened Checks

  /** The kernel with index loops. */
  method ExpandIndexed(g: Matrix, v: nat, C: seq<nat>) returns (r: seq<nat>)
    requires WellFormed(g) && v < |g| && Vertices(g, C)
    ensures r == Expand(g, v, C)
    decreases |Neighbours(g, v, C)|, 1
  {
    var best := [v];
    var nc := FilterLoop(g, [v], C);
    assert nc == Neighbours(g, v, C);
    NeighboursOfRoot(g, v, C);
    var i := 0;
    while i < |nc|
      invariant 0 <= i <= |nc|
      invariant Rooted(g, v, nc, best)
      invariant Best(g, v, nc, i, best) == Expand(g, v, C)
    {
      best := ExtendIndexed(g, v, nc, i, best);
      i := i + 1;
    }
    r := best;
  }

  /** One pass of the loop over `novosCandidatos`: expand the i-th neighbour,
      run the re-check loop (which shadows `i` in the source) and keep the
      longer clique. The re-check always passes, and the pass is exactly one
      step of the functional loop. */
  method ExtendIndexed(g: Matrix, v: nat, nc: seq<nat>, i: nat, best: seq<nat>) returns (next: seq<nat>)
    requires WellFormed(g) && v < |g| && Vertices(g, nc) && i < |nc|
    requires forall k :: 0 <= k < |nc| ==> g[nc[k]][v] != 0
    requires Rooted(g, v, nc, best)
    ensures Rooted(g, v, nc, next)
    ensures AllAdjacentTo(g, Expand(g, nc[i], nc), v)
    ensures next == Extend(g, v, nc, best, Expand(g, nc[i], nc))
    ensures Best(g, v, nc, i + 1, next) == Best(g, v, nc, i, best)
    decreases |nc|, 0
  {
    var cand := nc[i];
    FilterDropsSelf(g, nc, cand);
    var child := ExpandIndexed(g, cand, nc);
    RootedWithin(g, cand, nc, child);
    var ok := CheckAllAdjacentTo(g, child, v);
    if ok && |child| + 1 > |best| {
      next := child + [v];
    } else {
      next := best;
    }
    assert next == Extend(g, v, nc, best, child);
    assert Best(g, v, nc, i, best) == Best(g, v, nc, i + 1, next);
  }

  /** The root loop with `candidatos[i] = i`, read sequentially. */
  method FindMaxCliqueIndexed(g: Matrix) returns (best: seq<nat>)
    requires WellFormed(g)
    ensures best == FindMaxClique(g)
    ensures MaximumClique(g, best)
    ensures best == [] <==> |g| == 0
  {
    var candidates := Range(0, |g|);
    ghost var ks := Kernels(g, candidates);
    best := [];
    var i := 0;
    assert ks[..0] == [];
    while i < |candidates|
      invariant 0 <= i <= |candidates|
      invariant best == Fold([], ks[..i])
    {
      var current := ExpandIndexed(g, candidates[i], candidates);
      assert ks[i] == current;
      FoldPrefix([], ks, i);
      if |current| > |best| {
        best := current;
      }
      i := i + 1;
    }
    assert ks[..i] == ks;
    FindMaxCliqueIsMaximum(g);
  }
}

=== FILE: kernel.dfy ===
/** The root-restricted expansion kernel `encontrarCliqueMaximaRec` shared
    (with only cosmetic differences) by the sequential, parallel, memoized and
    distributed programs: the largest clique that contains a root v and whose
    other members come from a candidate list C. */
module Kernel {
  import opened Graph
  import opened Reduce

  /** K is a clique ending in its root v whose other members lie in C and are
      joined to v: the shape of every value `cliqueMaximaCandidato` takes. */
  predicate Rooted(g: Matrix, v: nat, C: seq<nat>, K: seq<nat>)
    requires Square(g) && v < |g|
  {
    && |K| >= 1
    && K[|K| - 1] == v
    && IsClique(g, K)
    && forall i :: 0 <= i < |K| - 1 ==> K[i] in C && g[K[i]][v] != 0
  }

  /** The neighbours of v among C: the list `novosCandidatos` is filtered
      against the clique `[v]`. */
  function Neighbours(g: Matrix, v: nat, C: seq<nat>): seq<nat>
    requires Square(g) && v < |g| && Vertices(g, C)
  {
    Filter(g, [v], C)
  }

  /** The kernel. The clique starts as `[v]`; each neighbour u of v is expanded
      against the same neighbour list, and its clique followed by v replaces the
      best one when every member is joined to v and it is strictly longer.
      Termination: the number of neighbours of the current vertex in the
      current list drops at every call, because no vertex is its own
      neighbour. */
  function Expand(g: Matrix, v: nat, C: seq<nat>): (r: seq<nat>)
    requires WellFormed(g) && v < |g| && Vertices(g, C)
    ensures Rooted(g, v, C, r)
    ensures Distinct(r)
    decreases |Neighbours(g, v, C)|, 1, 0
  {
    var nc := Neighbours(g, v, C);
    NeighboursOfRoot(g, v, C);
    var r := Best(g, v, nc, 0, [v]);
    CliqueIsDistinct(g, r);
    r
  }

  /** The loop over `novosCandidatos` from position i on, with `best` the
      clique found so far. */
  function Best(g: Matrix, v: nat, nc: seq<nat>, i: nat, best: seq<nat>): (r: seq<nat>)
    requires WellFormed(g) && v < |g| && Vertices(g, nc) && i <= |nc|
    requires forall k :: 0 <= k < |nc| ==> g[nc[k]][v] != 0
    requires Rooted(g, v, nc, best)
    ensures Rooted(g, v, nc, r)
    ensures |r| >= |best|
    decreases |nc|, 0, |nc| - i
  {
    if i == |nc| then best
    else
      FilterDropsSelf(g, nc, nc[i]);
      var child := Expand(g, nc[i], nc);
      Best(g, v, nc, i + 1, Extend(g, v, nc, best, child))
  }

  /** One iteration of that loop: the child clique followed by v replaces the
      best one when every member of the child is joined to v and the result
      is strictly longer. */
  function Extend(g: Matrix, v: nat, nc: seq<nat>, best: seq<nat>, child: seq<nat>): (next: seq<nat>)
    requires WellFormed(g) && v < |g| && Vertices(g, nc)
    requires Rooted(g, v, nc, best)
    requires IsClique(g, child) && forall k :: 0 <= k < |child| ==> child[k] in nc
    ensures Rooted(g, v, nc, next)
    ensures |next| >= |best|
    ensures AllAdjacentTo(g, child, v) ==> |next| >= |child| + 1
    ensures next == best || next == child + [v]
    ensures |child| + 1 <= |best| ==> next == best
  {
    if AllAdjacentTo(g, child, v) && |child| + 1 > |best| then child + [v] else best
  }

  /** A clique rooted at a listed vertex lies entirely in the list. */
  lemma RootedWithin(g: Matrix, u: nat, C: seq<nat>, K: seq<nat>)
    requires Square(g) && u < |g| && Rooted(g, u, C, K) && u in C
    ensures forall k :: 0 <= k < |K| ==> K[k] in C
  {
  }

  /** The neighbour list really is what the filter promises: exactly the
      members of C that are joined to v, in the order of C. */
  lemma NeighboursOfRoot(g: Matrix, v: nat, C: seq<nat>)
    requires Square(g) && v < |g| && Vertices(g, C)
    ensures forall i :: 0 <= i < |Neighbours(g, v, C)| ==>
              Neighbours(g, v, C)[i] in C && g[Neighbours(g, v, C)[i]][v] != 0
    ensures forall i :: 0 <= i < |C| && g[C[i]][v] != 0 ==> C[i] in Neighbours(g, v, C)
  {
    var nc := Neighbours(g, v, C);
    assert [v][0] == v;
    forall i | 0 <= i < |nc|
      ensures g[nc[i]][v] != 0
    {
      assert AdjacentToAll(g, nc[i], [v]);
    }
    forall i | 0 <= i < |C| && g[C[i]][v] != 0
      ensures C[i] in nc
    {
      assert AdjacentToAll(g, C[i], [v]);
    }
  }

  /** The re-check `podeAdicionar` never fails: every clique returned for a
      neighbour u of v draws on the neighbours of v only, and u is one. */
  lemma ChildJoinsRoot(g: Matrix, v: nat, C: seq<nat>, j: nat)
    requires WellFormed(g) && v < |g| && Vertices(g, C)
    requires j < |Neighbours(g, v, C)|
    ensures var nc := Neighbours(g, v, C);
            AllAdjacentTo(g, Expand(g, nc[j], nc), v)
  {
    var nc := Neighbours(g, v, C);
    NeighboursOfRoot(g, v, C);
    FilterDropsSelf(g, nc, nc[j]);
    var child := Expand(g, nc[j], nc);
    forall k | 0 <= k < |child|
      ensures g[child[k]][v] != 0
    {
      if k < |child| - 1 {
        var m :| 0 <= m < |nc| && nc[m] == child[k];
      }
    }
  }

  /** The loop keeps a clique at least one longer than the clique of every
      later neighbour whose re-check passes. */
  lemma {:induction false} BestAtLeast(g: Matrix, v: nat, nc: seq<nat>, i: nat, best: seq<nat>, j: nat)
    requires WellFormed(g) && v < |g| && Vertices(g, nc) && i <= j < |nc|
    requires forall k :: 0 <= k < |nc| ==> g[nc[k]][v] != 0
    requires Rooted(g, v, nc, best)
    requires AllAdjacentTo(g, Expand(g, nc[j], nc), v)
    ensures |Best(g, v, nc, i, best)| >= |Expand(g, nc[j], nc)| + 1
    decreases |nc| - i
  {
    FilterDropsSelf(g, nc, nc[i]);
    var child := Expand(g, nc[i], nc);
    RootedWithin(g, nc[i], nc, child);
    var next := Extend(g, v, nc, best, child);
    if i < j {
      BestAtLeast(g, v, nc, i + 1, next, j);
    }
  }

  /** The loop is the strict-greater fold: started at position i from the
      fold of the first i child candidates, it ends on the fold of all of
      them, where candidate j is the clique of neighbour j followed by v. */
  lemma {:induction false} BestFold(g: Matrix, v: nat, nc: seq<nat>, i: nat, cs: seq<seq<nat>>)
    requires WellFormed(g) && v < |g| && Vertices(g, nc) && i <= |nc|
    requires forall k :: 0 <= k < |nc| ==> g[nc[k]][v] != 0
    requires forall k :: 0 <= k < |nc| ==> AllAdjacentTo(g, Expand(g, nc[k], nc), v)
    requires |cs| == |nc| && forall k :: 0 <= k < |nc| ==> cs[k] == Expand(g, nc[k], nc) + [v]
    requires Rooted(g, v, nc, Fold([v], cs[..i]))
    ensures Best(g, v, nc, i, Fold([v], cs[..i])) == Fold([v], cs)
    decreases |nc| - i
  {
    var best := Fold([v], cs[..i]);
    if i == |nc| {
      assert cs[..i] == cs;
    } else {
      FilterDropsSelf(g, nc, nc[i]);
      var child := Expand(g, nc[i], nc);
      RootedWithin(g, nc[i], nc, child);
      FoldPrefix([v], cs, i);
      assert Extend(g, v, nc, best, child) == Fold([v], cs[..i + 1]);
      BestFold(g, v, nc, i + 1, cs);
    }
  }

  /** The kernel is the strict-greater fold over the child candidates, seeded
      with `[v]`; candidate k is the clique of neighbour k followed by v. */
  lemma ExpandIsFold(g: Matrix, v: nat, C: seq<nat>, cs: seq<seq<nat>>)
    requires WellFormed(g) && v < |g| && Vertices(g, C)
    requires |cs| == |Neighbours(g, v, C)|
    requires forall k :: 0 <= k < |cs| ==>
               cs[k] == Expand(g, Neighbours(g, v, C)[k], Neighbours(g, v, C)) + [v]
    ensures Expand(g, v, C) == Fold([v], cs)
  {
    var nc := Neighbours(g, v, C);
    NeighboursOfRoot(g, v, C);
    forall k | 0 <= k < |nc|
      ensures AllAdjacentTo(g, Expand(g, nc[k], nc), v)
    {
      ChildJoinsRoot(g, v, C, k);
    }
    assert cs[..0] == [];
    assert Rooted(g, v, nc, [v]);
    BestFold(g, v, nc, 0, cs);
  }

  /** The tie-break of the kernel: with no neighbour the answer is `[v]`,
      otherwise it is the first longest among the child candidates, because
      only a strictly longer candidate replaces the best one. */
  lemma ExpandPicksFirstLongest(g: Matrix, v: nat, C: seq<nat>, cs: seq<seq<nat>>)
    requires WellFormed(g) && v < |g| && Vertices(g, C)
    requires |cs| == |Neighbours(g, v, C)|
    requires forall k :: 0 <= k < |cs| ==>
               cs[k] == Expand(g, Neighbours(g, v, C)[k], Neighbours(g, v, C)) + [v]
    ensures |cs| == 0 ==> Expand(g, v, C) == [v]
    ensures |cs| > 0 ==> exists k :: FirstLongest(cs, k) && Expand(g, v, C) == cs[k]
  {
    ExpandIsFold(g, v, C, cs);
    FoldPicksFirstLongest([v], cs);
    if |cs| > 0 {
      assert |cs[0]| >= 2;
    }
  }

  /** Every other member of a clique through v that draws on C is a neighbour of v. */
  lemma RestInNeighbours(g: Matrix, v: nat, C: seq<nat>, K: set<nat>)
    requires WellFormed(g) && v < |g| && Vertices(g, C)
    requires CliqueSet(g, K) && v in K
    requires forall w :: w in K && w != v ==> w in C
    ensures forall w :: w in K && w != v ==> w in Neighbours(g, v, C)
  {
    NeighboursOfRoot(g, v, C);
    forall w | w in K && w != v
      ensures w in Neighbours(g, v, C)
    {
      var iw :| 0 <= iw < |C| && C[iw] == w;
    }
  }

  /** The kernel's answer for v is at least one longer than the answer for
      any of its neighbours: that neighbour's clique followed by v is a
      candidate the loop considers. */
  lemma ExpandAboveChild(g: Matrix, v: nat, C: seq<nat>, j: nat)
    requires WellFormed(g) && v < |g| && Vertices(g, C)
    requires j < |Neighbours(g, v, C)|
    ensures var nc := Neighbours(g, v, C);
            |Expand(g, nc[j], nc)| + 1 <= |Expand(g, v, C)|
  {
    var nc := Neighbours(g, v, C);
    NeighboursOfRoot(g, v, C);
    ChildJoinsRoot(g, v, C, j);
    assert Rooted(g, v, nc, [v]);
    BestAtLeast(g, v, nc, 0, [v], j);
  }

  /** Maximality: no clique that contains v and otherwise draws on C is larger
      than the kernel's answer. */
  lemma {:induction false} ExpandIsMaximal(g: Matrix, v: nat, C: seq<nat>, K: set<nat>)
    requires WellFormed(g) && v < |g| && Vertices(g, C)
    requires CliqueSet(g, K) && v in K
    requires forall w :: w in K && w != v ==> w in C
    ensures |K| <= |Expand(g, v, C)|
    decreases |Neighbours(g, v, C)|
  {
    if K != {v} {
      var u :| u in K && u != v;
      var nc := Neighbours(g, v, C);
      RestInNeighbours(g, v, C, K);
      var j :| 0 <= j < |nc| && nc[j] == u;
      var K' := K - {v};
      assert |K| == |K'| + 1;
      FilterDropsSelf(g, nc, u);
      ExpandIsMaximal(g, u, nc, K');
      ExpandAboveChild(g, v, C, j);
    }
  }
}

=== FILE: memo.dfy ===
/** The memoized program: the kernel consults a table from a textual key of
    the search state (root and candidate list) to the clique computed for it,
    and one table is shared by the whole root loop. Read sequentially, the
    table never changes an answer. */
module Memo {
  import opened Graph
  import opened Kernel
  import opened Reduce
  import opened RootScan

  predicate IsDigit(c: char) {
    '0' <= c <= '9'
  }

  predicate AllDigits(s: string) {
    forall i :: 0 <= i < |s| ==> IsDigit(s[i])
  }

  function DigitChar(d: nat): (c: char)
    requires d < 10
    ensures IsDigit(c)
  {
    (48 + d) as char
  }

  function DigitValue(c: char): nat
    requires IsDigit(c)
  {
    (c as int) - 48
  }

  /** `to_string` of a non-negative id: its decimal digits, most significant first. */
  function Decimal(n: nat): (s: string)
    ensures |s| >= 1 && AllDigits(s)
    decreases n
  {
    if n < 10 then [DigitChar(n)] else Decimal(n / 10) + [DigitChar(n % 10)]
  }

  /** The number a string of decimal digits denotes. */
  function Value(s: string): nat
    requires AllDigits(s)
  {
    if s == [] then 0 else Value(s[..|s| - 1]) * 10 + DigitValue(s[|s| - 1])
  }

  /** Reading back the decimal rendering of n gives n. */
  lemma {:induction false} DecimalRoundTrip(n: nat)
    ensures Value(Decimal(n)) == n
    decreases n
  {
    var s := Decimal(n);
    if n >= 10 {
      var front := Decimal(n / 10);
      assert s[..|s| - 1] == front;
      DecimalRoundTrip(n / 10);
    }
  }

  lemma DecimalInjective(a: nat, b: nat)
    requires Decimal(a) == Decimal(b)
    ensures a == b
  {
    DecimalRoundTrip(a);
    DecimalRoundTrip(b);
  }

  /** The part of the key after the root: `"_" + to_string(c)` for each candidate in order. */
  function CandidateSuffix(C: seq<nat>): (s: string)
    ensures s == [] <==> C == []
    ensures s != [] ==> s[0] == '_'
  {
    if C == [] then "" else "_" + Decimal(C[0]) + CandidateSuffix(C[1..])
  }

  /** The memo key of the search state (v, C): the root is read back from the
      key's leading digits, and the rest of the key is the candidate part. */
  function Key(v: nat, C: seq<nat>): (k: string)
    ensures LeadingDigits(k) <= |k| && AllDigits(k[..LeadingDigits(k)])
    ensures Value(k[..LeadingDigits(k)]) == v
    ensures k[LeadingDigits(k)..] == CandidateSuffix(C)
  {
    var root := Decimal(v);
    LeadingDigitsOfField(root, CandidateSuffix(C));
    DecimalRoundTrip(v);
    assert (root + CandidateSuffix(C))[..|root|] == root;
    root + CandidateSuffix(C)
  }

  /** The number of leading decimal digits of s. */
  function LeadingDigits(s: string): nat {
    if s == [] || !IsDigit(s[0]) then 0 else 1 + LeadingDigits(s[1..])
  }

  /** A run of digits followed by nothing or by a separator is read back whole. */
  lemma {:induction false} LeadingDigitsOfField(a: string, x: string)
    requires AllDigits(a)
    requires x == [] || x[0] == '_'
    ensures LeadingDigits(a + x) == |a|
  {
    if a != [] {
      assert (a + x)[1..] == a[1..] + x;
      LeadingDigitsOfField(a[1..], x);
    }
  }

  /** Splitting at the first separator: a digit field and the rest of the key
      are determined by their concatenation. */
  lemma SplitField(a: string, x: string, b: string, y: string)
    requires AllDigits(a) && AllDigits(b)
    requires x == [] || x[0] == '_'
    requires y == [] || y[0] == '_'
    requires a + x == b + y
    ensures a == b && x == y
  {
    LeadingDigitsOfField(a, x);
    LeadingDigitsOfField(b, y);
    assert a == (a + x)[..|a|];
    assert b == (b + y)[..|b|];
    assert x == (a + x)[|a|..];
    assert y == (b + y)[|b|..];
  }

  lemma {:induction false} SuffixInjective(C1: seq<nat>, C2: seq<nat>)
    requires CandidateSuffix(C1) == CandidateSuffix(C2)
    ensures C1 == C2
  {
    if C1 != [] && C2 != [] {
      var s := CandidateSuffix(C1);
      var x1 := CandidateSuffix(C1[1..]);
      var x2 := CandidateSuffix(C2[1..]);
      assert s[1..] == Decimal(C1[0]) + x1;
      assert s[1..] == Decimal(C2[0]) + x2;
      SplitField(Decimal(C1[0]), x1, Decimal(C2[0]), x2);
      DecimalInjective(C1[0], C2[0]);
      SuffixInjective(C1[1..], C2[1..]);
      assert C1 == [C1[0]] + C1[1..];
      assert C2 == [C2[0]] + C2[1..];
    }
  }

  /** For non-negative ids, distinct search states have distinct keys. */
  lemma KeyInjective(v1: nat, C1: seq<nat>, v2: nat, C2: seq<nat>)
    requires Key(v1, C1) == Key(v2, C2)
    ensures v1 == v2 && C1 == C2
  {
    SplitField(Decimal(v1), CandidateSuffix(C1), Decimal(v2), CandidateSuffix(C2));
    DecimalInjective(v1, v2);
    SuffixInjective(C1, C2);
  }

  type MemoTable = map<string, seq<nat>>

  /** Every entry stored under the key of a search state holds the plain
      kernel's answer for that state. */
  ghost predicate MemoSound(g: Matrix, memo: MemoTable)
    requires WellFormed(g)
  {
    forall v: nat, C: seq<nat> ::
      v < |g| && Vertices(g, C) && Key(v, C) in memo ==> memo[Key(v, C)] == Expand(g, v, C)
  }

  /** `next` keeps every entry of `memo` with its value, and may add more. */
  predicate Grows(memo: MemoTable, next: MemoTable) {
    memo.Keys <= next.Keys && forall k :: k in memo ==> next[k] == memo[k]
  }

  lemma GrowsTransitive(a: MemoTable, b: MemoTable, c: MemoTable)
    requires Grows(a, b) && Grows(b, c)
    ensures Grows(a, c)
  {
  }

  /** Storing under a key the older table lacks keeps it contained. */
  lemma StoreGrows(memo: MemoTable, next: MemoTable, key: string, value: seq<nat>)
    requires Grows(memo, next) && key !in memo
    ensures Grows(memo, next[key := value])
  {
  }

  /** Storing the plain kernel's answer under its own key keeps the table sound. */
  lemma StoreKeepsSound(g: Matrix, memo: MemoTable, v: nat, C: seq<nat>)
    requires WellFormed(g) && v < |g| && Vertices(g, C) && MemoSound(g, memo)
    ensures MemoSound(g, memo[Key(v, C) := Expand(g, v, C)])
  {
    var next := memo[Key(v, C) := Expand(g, v, C)];
    forall v': nat, C': seq<nat> | v' < |g| && Vertices(g, C') && Key(v', C') in next
      ensures next[Key(v', C')] == Expand(g, v', C')
    {
      if Key(v', C') == Key(v, C) {
        KeyInjective(v', C', v, C);
      }
    }
  }

  /** The memoized kernel. On a hit it returns the stored clique and leaves
      the table alone; on a miss it runs the kernel (consulting the table in
      the recursive calls) and stores the answer under the state's key. */
  function ExpandMemo(g: Matrix, v: nat, C: seq<nat>, memo: MemoTable): (res: (seq<nat>, MemoTable))
    requires WellFormed(g) && v < |g| && Vertices(g, C) && MemoSound(g, memo)
    ensures res.0 == Expand(g, v, C)
    ensures MemoSound(g, res.1) && Grows(memo, res.1)
    ensures Key(v, C) in res.1 && res.1[Key(v, C)] == res.0
    ensures Key(v, C) in memo ==> res == (memo[Key(v, C)], memo)
    decreases |Neighbours(g, v, C)|, 1, 0
  {
    var key := Key(v, C);
    if key in memo then (memo[key], memo)
    else
      var nc := Neighbours(g, v, C);
      NeighboursOfRoot(g, v, C);
      var found := BestMemo(g, v, nc, 0, [v], memo);
      assert found.0 == Expand(g, v, C);
      StoreKeepsSound(g, found.1, v, C);
      StoreGrows(memo, found.1, key, found.0);
      (found.0, found.1[key := found.0])
  }

  /** The loop over the neighbour list with the table threaded through it. */
  function BestMemo(g: Matrix, v: nat, nc: seq<nat>, i: nat, best: seq<nat>, memo: MemoTable): (res: (seq<nat>, MemoTable))
    requires WellFormed(g) && v < |g| && Vertices(g, nc) && i <= |nc|
    requires forall k :: 0 <= k < |nc| ==> g[nc[k]][v] != 0
    requires Rooted(g, v, nc, best)
    requires MemoSound(g, memo)
    ensures res.0 == Best(g, v, nc, i, best)
    ensures MemoSound(g, res.1) && Grows(memo, res.1)
    decreases |nc|, 0, |nc| - i
  {
    if i == |nc| then (best, memo)
    else
      FilterDropsSelf(g, nc, nc[i]);
      var child := ExpandMemo(g, nc[i], nc, memo);
      RootedWithin(g, nc[i], nc, child.0);
      var next := Extend(g, v, nc, best, child.0);
      assert Best(g, v, nc, i, best) == Best(g, v, nc, i + 1, next);
      var rest := BestMemo(g, v, nc, i + 1, next, child.1);
      GrowsTransitive(memo, child.1, rest.1);
      rest
  }

  /** The root loop with one table shared by all roots, processed in order. */
  function ScanMemo(g: Matrix, roots: seq<nat>, memo: MemoTable): (res: (seq<nat>, MemoTable))
    requires WellFormed(g) && Vertices(g, roots) && MemoSound(g, memo)
    ensures res.0 == Scan(g, roots)
    ensures MemoSound(g, res.1) && Grows(memo, res.1)
    decreases |roots|
  {
    if roots == [] then ([], memo)
    else
      var front := roots[..|roots| - 1];
      var last := roots[|roots| - 1];
      var before := ScanMemo(g, front, memo);
      var current := ExpandMemo(g, last, Range(0, |g|), before.1);
      FoldSnoc([], Kernels(g, front), current.0);
      GrowsTransitive(memo, before.1, current.1);
      (Keep(before.0, current.0), current.1)
  }

  /** The memoized program starts from an empty table and returns exactly the
      answer of the sequential program. */
  function FindMaxCliqueMemo(g: Matrix): (r: seq<nat>)
    requires WellFormed(g)
    ensures r == FindMaxClique(g)
  {
    ScanMemo(g, Range(0, |g|), map[]).0
  }
}

=== FILE: poplast.dfy ===
/** The first brute-force program: a greedy pass that takes the candidates
    from the back of the list 0..n-1, adds each one joined to the whole
    clique, and then keeps only the candidates joined to the grown clique. */
module PopLast {
  import opened Graph
  import opened RootScan
  import opened Checks

  /** Members appear in strictly decreasing id order. */
  predicate Decreasing(s: seq<nat>) {
    forall i, j :: 0 <= i < j < |s| ==> s[i] > s[j]
  }

  /** Filtering an increasing list keeps it increasing. */
  lemma {:induction false} FilterIncreasing(g: Matrix, K: seq<nat>, C: seq<nat>)
    requires Square(g) && Vertices(g, K) && Vertices(g, C) && Increasing(C)
    ensures Increasing(Filter(g, K, C))
  {
    if C != [] {
      var front := C[..|C| - 1];
      var u := C[|C| - 1];
      FilterIncreasing(g, K, front);
      var r := Filter(g, K, front);
      var t := if AdjacentToAll(g, u, K) then [u] else [];
      assert Filter(g, K, C) == r + t;
      forall i | 0 <= i < |r|
        ensures r[i] < u
      {
        var m :| 0 <= m < |front| && front[m] == r[i];
        assert C[m] < u;
      }
      forall i, j | 0 <= i < j < |r + t|
        ensures (r + t)[i] < (r + t)[j]
      {
        if j < |r| {
          assert (r + t)[i] == r[i] && (r + t)[j] == r[j];
        } else {
          assert (r + t)[i] == r[i] && (r + t)[j] == u;
        }
      }
    }
  }

  /** What the loop keeps between iterations: the clique grows downwards
      from above every remaining candidate, every remaining candidate is
      joined to the whole clique, and a vertex that is neither taken nor
      remaining cannot extend the clique. */
  predicate Invariant(g: Matrix, clique: seq<nat>, C: seq<nat>)
    requires WellFormed(g)
  {
    && Vertices(g, C) && Increasing(C) && IsClique(g, clique) && Decreasing(clique)
    && (forall i :: 0 <= i < |C| ==> AdjacentToAll(g, C[i], clique))
    && (forall i, k :: 0 <= i < |C| && 0 <= k < |clique| ==> C[i] < clique[k])
    && (forall u :: 0 <= u < |g| ==> u in clique || u in C || !AdjacentToAll(g, u, clique))
  }

  /** The filtered rest still lies below every member of the grown clique,
      and the grown clique still decreases. */
  lemma PopOrder(g: Matrix, clique: seq<nat>, C: seq<nat>, rest: seq<nat>, next: seq<nat>)
    requires WellFormed(g) && C != [] && Invariant(g, clique, C)
    requires rest == C[..|C| - 1] && next == clique + [C[|C| - 1]]
    ensures Decreasing(next)
    ensures forall i, k :: 0 <= i < |Filter(g, next, rest)| && 0 <= k < |next| ==>
              Filter(g, next, rest)[i] < next[k]
  {
    var remaining := Filter(g, next, rest);
    forall i, k | 0 <= i < |remaining| && 0 <= k < |next|
      ensures remaining[i] < next[k]
    {
      var m :| 0 <= m < |rest| && rest[m] == remaining[i];
      assert C[m] < C[|C| - 1];
    }
  }

  /** A vertex that is neither in the grown clique nor kept by the filter
      cannot extend the grown clique. */
  lemma PopCovers(g: Matrix, clique: seq<nat>, C: seq<nat>, rest: seq<nat>, next: seq<nat>)
    requires WellFormed(g) && C != [] && Invariant(g, clique, C)
    requires rest == C[..|C| - 1] && next == clique + [C[|C| - 1]]
    ensures forall u :: 0 <= u < |g| ==>
              u in next || u in Filter(g, next, rest) || !AdjacentToAll(g, u, next)
  {
    forall u | 0 <= u < |g| && u !in next && AdjacentToAll(g, u, next)
      ensures u in Filter(g, next, rest)
    {
      AdjacentToPrefix(g, u, clique, C[|C| - 1]);
      assert u in C;
      var m :| 0 <= m < |C| && C[m] == u;
      assert rest[m] == u;
    }
  }

  /** Taking the last candidate and filtering the rest against the grown
      clique keeps the invariant. */
  lemma PopKeeps(g: Matrix, clique: seq<nat>, C: seq<nat>)
    requires WellFormed(g) && C != [] && Invariant(g, clique, C)
    ensures var next := clique + [C[|C| - 1]];
            Invariant(g, next, Filter(g, next, C[..|C| - 1]))
  {
    var v := C[|C| - 1];
    var rest := C[..|C| - 1];
    var next := clique + [v];
    AppendKeepsClique(g, clique, v);
    FilterIncreasing(g, next, rest);
    PopOrder(g, clique, C, rest, next);
    PopCovers(g, clique, C, rest, next);
  }

  /** One pass of the loop: pop the last candidate, run the check (which
      always passes), add it and filter the rest against the grown clique. */
  method PopStep(g: Matrix, clique: seq<nat>, C: seq<nat>) returns (next: seq<nat>, remaining: seq<nat>)
    requires WellFormed(g) && C != [] && Invariant(g, clique, C)
    ensures next == clique + [C[|C| - 1]]
    ensures Invariant(g, next, remaining) && |remaining| < |C|
  {
    var v := C[|C| - 1];
    var rest := C[..|C| - 1];
    var ok := CheckAllAdjacentTo(g, clique, v);
    assert ok;
    next := clique;
    remaining := rest;
    if ok {
      next := clique + [v];
      PopKeeps(g, clique, C);
      remaining := FilterLoop(g, next, rest);
    }
  }

  /** `encontrarCliqueMaxima` of forca-bruta.cpp. The first vertex taken is
      n-1, later ones are smaller, and when the list runs out no vertex can
      extend the clique. */
  method PopLastGreedy(g: Matrix) returns (clique: seq<nat>)
    requires WellFormed(g)
    ensures IsClique(g, clique) && Decreasing(clique)
    ensures clique == [] <==> |g| == 0
    ensures |g| >= 1 ==> clique[0] == |g| - 1
    ensures forall u :: 0 <= u < |g| ==> u in clique || !AdjacentToAll(g, u, clique)
    ensures |clique| <= |FindMaxClique(g)|
  {
    clique := [];
    var C := Range(0, |g|);
    forall u | 0 <= u < |g|
      ensures u in C
    {
      assert C[u] == u;
    }
    while |C| != 0
      invariant Invariant(g, clique, C)
      invariant clique == [] ==> C == Range(0, |g|)
      invariant clique != [] ==> clique[0] == |g| - 1
      decreases |C|
    {
      clique, C := PopStep(g, clique, C);
    }
    FindMaxCliqueIsMaximum(g);
    CliqueAsSet(g, clique);
  }
}

=== FILE: reader.dfy ===
/** `lerGrafo` without the file: the vertex count and the list of 1-indexed
    edges that follow it in the input become an n×n adjacency matrix. */
module Reader {
  import opened Graph

  /** One input line `u v`, both ids counted from 1. */
  datatype Edge = Edge(u: int, v: int)

  /** The edge joins the 0-indexed vertices i and j, in either direction. */
  predicate Joins(e: Edge, i: nat, j: nat) {
    (e.u - 1 == i && e.v - 1 == j) || (e.v - 1 == i && e.u - 1 == j)
  }

  /** Both ends are ids of the graph. */
  predicate InRange(n: nat, e: Edge) {
    1 <= e.u <= n && 1 <= e.v <= n
  }

  /** The matrix after the edges read so far: a cell is 1 exactly when some of
      those edges joins its row and column. */
  predicate Reflects(g: Matrix, n: nat, edges: seq<Edge>)
  {
    && |g| == n && Square(g)
    && forall i, j :: 0 <= i < n && 0 <= j < n ==>
         (g[i][j] == 1 <==> exists k :: 0 <= k < |edges| && Joins(edges[k], i, j))
         && (g[i][j] == 0 || g[i][j] == 1)
  }

  /** The n×n matrix of zeros. */
  function Zeros(n: nat): (g: Matrix)
    ensures |g| == n && Square(g)
    ensures forall i, j :: 0 <= i < n && 0 <= j < n ==> g[i][j] == 0
  {
    seq(n, _ => seq(n, _ => 0))
  }

  /** Set cell (i, j) to 1. */
  function Mark(g: Matrix, i: nat, j: nat): (h: Matrix)
    requires Square(g) && i < |g| && j < |g|
    ensures |h| == |g| && Square(h)
    ensures forall a, b :: 0 <= a < |g| && 0 <= b < |g| ==>
              h[a][b] == (if a == i && b == j then 1 else g[a][b])
  {
    g[i := g[i][j := 1]]
  }

  /** The reading loop: start from zeros and, for every edge, set both
      `grafo[u-1][v-1]` and `grafo[v-1][u-1]` to 1. The result has a 1
      exactly where an edge joins the two ids, is symmetric and 0/1, and it
      is a graph the searches accept whenever no edge is a self-loop. */
  method ReadGraph(n: nat, edges: seq<Edge>) returns (g: Matrix)
    requires forall k :: 0 <= k < |edges| ==> InRange(n, edges[k])
    ensures |g| == n && Square(g) && ZeroOne(g) && Symmetric(g)
    ensures forall i, j :: 0 <= i < n && 0 <= j < n ==>
              (g[i][j] == 1 <==> exists k :: 0 <= k < |edges| && Joins(edges[k], i, j))
    ensures (forall k :: 0 <= k < |edges| ==> edges[k].u != edges[k].v) ==> WellFormed(g)
  {
    g := Zeros(n);
    var k := 0;
    while k < |edges|
      invariant 0 <= k <= |edges|
      invariant Reflects(g, n, edges[..k])
    {
      var e := edges[k];
      var before := g;
      g := Mark(g, e.u - 1, e.v - 1);
      g := Mark(g, e.v - 1, e.u - 1);
      var done := edges[..k + 1];
      forall i, j | 0 <= i < n && 0 <= j < n
        ensures g[i][j] == 1 <==> exists m :: 0 <= m < k + 1 && Joins(done[m], i, j)
      {
        if Joins(e, i, j) {
          assert done[k] == e;
        } else {
          assert g[i][j] == before[i][j];
          forall m | 0 <= m < k + 1 && Joins(done[m], i, j)
            ensures m < k && Joins(edges[..k][m], i, j)
          {
            assert done[m] == edges[m];
          }
        }
      }
      k := k + 1;
    }
    assert edges[..|edges|] == edges;
  }
}

=== FILE: reduce.dfy ===
/** The reduction every program applies to candidate cliques: walk the
    candidates in order and replace the best one only by a strictly longer
    one. The root loops and the coordinator's gather are both this fold. */
module Reduce {

  /** One step: `if (cur.size() > best.size()) best = cur;` */
  function Keep<T>(best: seq<T>, cur: seq<T>): seq<T> {
    if |cur| > |best| then cur else best
  }

  /** Folds Keep over xs from left to right, starting from best. */
  function Fold<T>(best: seq<T>, xs: seq<seq<T>>): (r: seq<T>)
    ensures |r| >= |best|
    ensures forall i :: 0 <= i < |xs| ==> |xs[i]| <= |r|
    ensures r == best || r in xs
    decreases |xs|
  {
    if xs == [] then best
    else Keep(Fold(best, xs[..|xs| - 1]), xs[|xs| - 1])
  }

  /** xs[k] is the first of the longest entries of xs. */
  predicate FirstLongest<T>(xs: seq<seq<T>>, k: int) {
    && 0 <= k < |xs|
    && (forall i :: 0 <= i < |xs| ==> |xs[i]| <= |xs[k]|)
    && (forall i :: 0 <= i < k ==> |xs[i]| < |xs[k]|)
  }

  /** Because only a strictly longer entry replaces the best, the fold either
      keeps its seed (nothing was longer) or ends on the first longest entry. */
  lemma {:induction false} FoldPicksFirstLongest<T>(best: seq<T>, xs: seq<seq<T>>)
    ensures || (Fold(best, xs) == best && forall i :: 0 <= i < |xs| ==> |xs[i]| <= |best|)
            || (exists k :: FirstLongest(xs, k) && Fold(best, xs) == xs[k] && |xs[k]| > |best|)
    decreases |xs|
  {
    if xs != [] {
      var front := xs[..|xs| - 1];
      var last := xs[|xs| - 1];
      var prev := Fold(best, front);
      FoldPicksFirstLongest(best, front);
      if |last| > |prev| {
        assert FirstLongest(xs, |xs| - 1) by {
          forall i | 0 <= i < |xs| - 1
            ensures |xs[i]| < |last|
          {
            assert xs[i] == front[i];
          }
        }
      } else if prev == best && forall i :: 0 <= i < |front| ==> |front[i]| <= |best| {
        forall i | 0 <= i < |xs|
          ensures |xs[i]| <= |best|
        {
          if i < |front| { assert xs[i] == front[i]; }
        }
      } else {
        var k :| FirstLongest(front, k) && prev == front[k] && |front[k]| > |best|;
        assert xs[k] == front[k];
        assert FirstLongest(xs, k) by {
          forall i | 0 <= i < |xs|
            ensures |xs[i]| <= |xs[k]|
          {
            if i < |front| { assert xs[i] == front[i]; }
          }
          forall i | 0 <= i < k
            ensures |xs[i]| < |xs[k]|
          {
            assert xs[i] == front[i];
          }
        }
      }
    }
  }

  /** Extending the list by one entry is one more Keep step: the loop form. */
  lemma FoldSnoc<T>(best: seq<T>, xs: seq<seq<T>>, x: seq<T>)
    ensures Fold(best, xs + [x]) == Keep(Fold(best, xs), x)
  {
    assert (xs + [x])[..|xs|] == xs;
  }

  /** The fold over a prefix one entry longer is one more Keep step. */
  lemma FoldPrefix<T>(best: seq<T>, xs: seq<seq<T>>, i: nat)
    requires i < |xs|
    ensures Fold(best, xs[..i + 1]) == Keep(Fold(best, xs[..i]), xs[i])
  {
    assert xs[..i + 1][..i] == xs[..i];
  }
}

=== FILE: rootscan.dfy ===
/** The root loop `encontrarCliqueMaxima`: run the kernel from every root with
    all vertices as candidates and keep a strictly longer clique each time.
    The sequential reference program scans roots 0..n-1; the distributed
    program scans a contiguous range [iStart, iEnd) of them. */
module RootScan {
  import opened Graph
  import opened Kernel
  import opened Reduce

  /** The kernel's answer for each root, all vertices being candidates. */
  function Kernels(g: Matrix, roots: seq<nat>): (ks: seq<seq<nat>>)
    requires WellFormed(g) && Vertices(g, roots)
    ensures |ks| == |roots|
    ensures forall i :: 0 <= i < |roots| ==> ks[i] == Expand(g, roots[i], Range(0, |g|))
  {
    if roots == [] then []
    else Kernels(g, roots[..|roots| - 1]) + [Expand(g, roots[|roots| - 1], Range(0, |g|))]
  }

  /** The root loop over the given roots, in order. The answer is empty when
      there is no root; otherwise it is the kernel's answer for the first root
      whose answer is longest. */
  function Scan(g: Matrix, roots: seq<nat>): (r: seq<nat>)
    requires WellFormed(g) && Vertices(g, roots)
    ensures IsClique(g, r) && Distinct(r)
    ensures roots == [] ==> r == []
    ensures roots != [] ==> exists k :: FirstLongest(Kernels(g, roots), k) && r == Kernels(g, roots)[k]
  {
    var ks := Kernels(g, roots);
    FoldPicksFirstLongest([], ks);
    Fold([], ks)
  }

  /** The sequential program: every vertex is a root. The answer is a
      duplicate-free clique, empty when the graph is, and otherwise the
      kernel's answer for the first root whose answer is longest. */
  function FindMaxClique(g: Matrix): (r: seq<nat>)
    requires WellFormed(g)
    ensures IsClique(g, r) && Distinct(r)
    ensures |g| == 0 ==> r == []
    ensures |g| > 0 ==> exists k :: FirstLongest(Kernels(g, Range(0, |g|)), k) && r == Kernels(g, Range(0, |g|))[k]
  {
    Scan(g, Range(0, |g|))
  }

  /** The distributed program's local search over roots iStart..iEnd-1: a
      duplicate-free clique, empty on an empty range, and otherwise the
      kernel's answer for the first root of the range whose answer is longest. */
  function ScanRange(g: Matrix, lo: nat, hi: nat): (r: seq<nat>)
    requires WellFormed(g) && lo <= hi <= |g|
    ensures IsClique(g, r) && Distinct(r)
    ensures lo == hi ==> r == []
    ensures lo < hi ==> exists k :: FirstLongest(Kernels(g, Range(lo, hi)), k) && r == Kernels(g, Range(lo, hi))[k]
  {
    Scan(g, Range(lo, hi))
  }

  /** No clique of g that contains one of the roots is larger than the scan's answer. */
  lemma ScanCoversRoots(g: Matrix, roots: seq<nat>, K: set<nat>, v: nat)
    requires WellFormed(g) && Vertices(g, roots)
    requires CliqueSet(g, K) && v in K && v in roots
    ensures |K| <= |Scan(g, roots)|
  {
    var all := Range(0, |g|);
    forall w | w in K && w != v
      ensures w in all
    {
      assert all[w] == w;
    }
    ExpandIsMaximal(g, v, all, K);
    var k :| 0 <= k < |roots| && roots[k] == v;
    assert Kernels(g, roots)[k] == Expand(g, v, all);
  }

  /** The sequential program's answer is a maximum clique, and empty exactly
      when the graph has no vertex. */
  lemma FindMaxCliqueIsMaximum(g: Matrix)
    requires WellFormed(g)
    ensures MaximumClique(g, FindMaxClique(g))
    ensures FindMaxClique(g) == [] <==> |g| == 0
  {
    var all := Range(0, |g|);
    forall K | CliqueSet(g, K)
      ensures |K| <= |FindMaxClique(g)|
    {
      if K != {} {
        var v :| v in K;
        assert all[v] == v;
        ScanCoversRoots(g, all, K, v);
      }
    }
    if |g| > 0 {
      assert CliqueSet(g, {0});
    }
  }

  /** The range-restricted search: empty on an empty range; otherwise at least
      as large as every clique that contains a root of the range. */
  lemma ScanRangeCovers(g: Matrix, lo: nat, hi: nat, K: set<nat>, v: nat)
    requires WellFormed(g) && lo <= hi <= |g|
    requires CliqueSet(g, K) && v in K && lo <= v < hi
    ensures |K| <= |ScanRange(g, lo, hi)|
  {
    assert Range(lo, hi)[v - lo] == v;
    ScanCoversRoots(g, Range(lo, hi), K, v);
  }

  /** The one-vertex matrix is a graph the searches accept. */
  lemma SingleWellFormed()
    ensures WellFormed([[0]])
  {
    var g: Matrix := [[0]];
    assert g[0][0] == 0;
  }

  /** On any graph with one vertex the sequential answer is that vertex. */
  lemma OneVertexAnswer(g: Matrix)
    requires WellFormed(g) && |g| == 1
    ensures FindMaxClique(g) == [0]
  {
    FindMaxCliqueIsMaximum(g);
    var r := FindMaxClique(g);
    CliqueIsDistinct(g, r);
    DistinctCard(r);
    assert Members(r) <= {0};
    assert r[0] == 0;
  }

  /** The one-vertex graph and the sequential answer on it. */
  lemma SingleVertex()
    ensures var g: Matrix := [[0]];
            WellFormed(g) && FindMaxClique(g) == [0]
  {
    SingleWellFormed();
    OneVertexAnswer([[0]]);
  }
}
